=== FILE: README.md ===
# Mephisto supervisor and task launcher, modelled in Dafny

This project models the sequential decision rules inside Mephisto's `Supervisor`
(`mephisto/core/supervisor.py`) and `TaskLauncher` (`mephisto/core/task_launcher.py`), and
proves what they promise. The real code runs these rules on threads, over channels and
against a database. Here each rule is a pure function or a short method. Everything it
would learn from outside enters as an input:

- what `channel.send` returns on each attempt;
- which units `task_run.reserve_unit` grants;
- the unit statuses the database reports in each round;
- which `unit.expire()` calls raise;
- the `AgentState.valid()` / `complete()` status lists.

Modules, one per file:

- `Wrappers` (`wrappers.dfy`): `Option` and `Result`.
- `AgentStatus` (`agent_status.dfy`): the agent statuses, the `valid()`/`complete()` lists
  as a `StatusSets` input, and `STATUS_TO_TEXT_MAP`.
- `Packets` (`packets.dfy`): packet types, the packets the supervisor builds, and the
  routing in `_on_message`.
- `SupervisorState` (`supervisor_state.dfy`): `AgentInfo` and the supervisor's maps and
  queue. The invariant `IndexWf` says that every registration id indexes a tracked
  agent. The source stores the same `AgentInfo` object in both maps; here
  `byRegistration` maps a registration id to an agent id.
- `StatusReconcile` (`status_reconcile.dfy`): `_handle_updated_agent_status`,
  `_send_status_update` and `_mark_agent_done`. The item-by-item merge is proved equal
  to a whole-report reference (`ExpectedInfo`, `ExpectedPushes`).
- `SendQueues` (`send_queues.dfy`): `_try_send_agent_messages` and `_send_message_queue`,
  draining a queue with a send-result oracle.
- `Registration` (`registration.dfy`): `_register_agent` and `_assign_unit_to_agent`, up to
  the point where a unit would be launched.
- `TaskLauncher` (`task_launcher.dfy`): `create_assignments`, with a counter as the
  database id allocator, and `expire_units`.
- `UnitThrottle` (`unit_throttle.dfy`): `generate_units`, in three forms:
  - the round that its doc comment describes;
  - a multi-round run;
  - the two index loops exactly as written, with lemmas that say what they really do.

## Model

| member | source | states |
|---|---|---|
| AgentStatus.DoneText | mephisto/core/supervisor.py:54-63 | Exactly EXPIRED, TIMEOUT, DISCONNECT and PARTNER_DISCONNECT have a done text. Each of the four gets its own entry of the table, and each text is non-empty. |
| AgentStatus.DoneTextInjective | mephisto/core/supervisor.py:54-63 | Different statuses never share a done text, so the text identifies the status. |
| Packets.Dispatch | mephisto/core/supervisor.py:613-634 | An incoming packet goes to the handler that serves its type. Exactly the six types the supervisor only sends (alive, request-status, init-data, provider-details, request-action, update-status) raise "Unexpected packet type". |
| StatusReconcile.ReportedFor | mephisto/core/supervisor.py:717 | A status-map lookup: `None` exactly when no item names the agent, and otherwise the status of an item that names it. |
| StatusReconcile.StatusPacket | mephisto/core/supervisor.py:666-679 | The status push goes to the agent and carries its status. `task_done` is true iff the status is PARTNER_DISCONNECT. The done text is the text map's entry for the status: present iff the map has one, and then that entry. |
| StatusReconcile.SendStatusUpdate | mephisto/core/supervisor.py:662-681 | The push is handed to a channel iff the agent's channel is registered. Otherwise the lookup fails on that channel id. |
| StatusReconcile.MarkAgentDone | mephisto/core/supervisor.py:683-708 | It sends nothing iff the status is in `complete()` or is PARTNER_DISCONNECT. It fails only for an unknown channel. Otherwise it sends at most one packet: status completed, text "You have completed this task. Please submit.", `task_done` true. |
| StatusReconcile.TaskDoneToldExactlyOnce | mephisto/core/supervisor.py:662-708 | For an agent that is not final, or was told of a partner disconnect, exactly one of the status push and the done mark sets `task_done`. |
| StatusReconcile.Decide | mephisto/core/supervisor.py:717-741 | A reported item causes a push iff it is STATUS_NONE, valid, for a tracked agent, with no local update pending. It is adopted iff it is valid, tracked, not pending, neither NONE nor COMPLETED, different from the local status, and the local status is not final. |
| StatusReconcile.Reconcile | mephisto/core/supervisor.py:710-742 | Merging a report never adds or removes a tracked agent. |
| StatusReconcile.ExpectedPushes | mephisto/core/supervisor.py:729-732 | Every push the report calls for goes to a tracked agent that the report names. The push is built from that agent's record and is one that `Decide` marks as a push. |
| StatusReconcile.ReconcileMeetsSpec | mephisto/core/supervisor.py:717-741 | Merging a report item by item agrees with the whole-report reference. The pushes sent are a prefix of the expected pushes. The merge stops with a failure iff some expected push has an unknown channel. Without a failure, every record and every push is exactly as expected. |
| StatusReconcile.UnreportedAgentUntouched | mephisto/core/supervisor.py:717-741 | An agent the report does not name keeps its record and gets no push. |
| StatusReconcile.PushesOnlyToNamed | mephisto/core/supervisor.py:729-732 | No push goes to an agent unless the report gives it STATUS_NONE and that item calls for a push. |
| StatusReconcile.IgnoredItemChangesNothing | mephisto/core/supervisor.py:717-728 | An item whose status is invalid, whose agent is untracked, or whose agent has a local update pending adds no agent, changes no record and causes no push. |
| StatusReconcile.FinalStatusKept | mephisto/core/supervisor.py:733-738 | An agent whose status is in `complete()` keeps its record, whatever is reported. |
| StatusReconcile.CompletedAndNoneNeverAdopted | mephisto/core/supervisor.py:729-740 | The merge never writes COMPLETED or NONE. An agent can end with either only if it had it before. |
| StatusReconcile.ReportedStatusAdopted | mephisto/core/supervisor.py:733-741 | In a merge that raises no KeyError, a reported status that is valid, neither NONE nor COMPLETED, for a tracked agent with no local update pending and a local status outside `complete()`, becomes the agent's status, and nothing else in its record changes. |
| StatusReconcile.CountExpectedPushes | mephisto/core/supervisor.py:729-732 | The reference calls for exactly one push to an agent reported as NONE whose item calls for a push, and none to any other agent. |
| StatusReconcile.NoneReportPushesOnce | mephisto/core/supervisor.py:729-732 | In a merge that raises no KeyError, and with NONE in `valid()`, a NONE report for a tracked agent with no local update pending leaves its record as it was and causes exactly one push to it. |
| SendQueues.TrySendAgentMessages | mephisto/core/supervisor.py:637-647 | An unknown channel raises before the queue is touched. Otherwise sent + remaining is the original queue (in order, nothing lost or duplicated). Every sent packet was accepted. If packets remain, the head is the one that was refused. Only the queue changes. |
| SendQueues.SendMessageQueue | mephisto/core/supervisor.py:649-660 | Sent + remaining is the original queue. The exception is a packet with an unknown receiver: it is popped and then lost between the two parts. Every sent packet was accepted by a registered channel. A remaining head was refused. Nothing is lost when every receiver is registered. |
| Registration.ReserveFirst | mephisto/core/supervisor.py:376-379 | Units are tried in list order. The first grantable unit is reserved, every earlier unit was refused, and the units after it are never tried. Nothing is reserved iff no unit is grantable. |
| Registration.AssignUnitToAgent | mephisto/core/supervisor.py:366-408 | Exactly one reply is queued, to the requesting channel. Its agent id is None iff no unit could be reserved. On success the new agent is stored under its agent id and indexed by its registration id, bound to the reserved unit and channel; otherwise no map changes. The registration index stays well formed. |
| Registration.Reconnect | mephisto/core/supervisor.py:494-509 | A known registration id creates no agent. Only the agent's `used_channel_id` is rebound to the incoming channel, and the reply carries the existing agent id. It fails iff the index names an agent that is no longer tracked. |
| Registration.AdmitNewAgent | mephisto/core/supervisor.py:529-585 | Every worker gets exactly one reply to their request, and the registration index stays well formed. A disqualified worker gets a reply with no agent, and nothing else changes. A worker sent to onboarding gets a reply naming the new onboarding agent. That agent is tracked with status ONBOARDING, its request is remembered, and the registration index is unchanged. Any other worker goes to unit assignment (`AssignUnitToAgent`) with the valid units. |
| Registration.RegisterAgentAsWritten | mephisto/core/supervisor.py:489-585 | With no valid unit, a new worker's request gets two replies; otherwise it gets one. |
| Registration.AsWrittenRepliesTwiceWithoutUnits | mephisto/core/supervisor.py:519-527 | A new worker with no valid unit gets a reply with no agent, followed by a second reply to the same request. |
| Registration.RegisterAgent | mephisto/core/supervisor.py:489-585 | Each request gets exactly one reply. It fails only when the index names an untracked agent, so it never fails when the index is well formed, and it keeps the index well formed. A worker with no valid unit gets only the no-agent reply. A new worker with valid units goes through `AdmitNewAgent`. A reconnection is exactly `Reconnect`: only the agent's `used_channel_id` is rebound, every other record, the index, the onboarding requests and the channels are unchanged, and the one reply (not an onboarding reply) carries the existing agent id. |
| TaskLauncher.NewUnits | mephisto/core/task_launcher.py:82-97 | An entry gets `len(unit_data)` units, all of its assignment, with `unit_idx` running 0..n-1 and consecutive ids. |
| TaskLauncher.CreateAll | mephisto/core/task_launcher.py:71-97 | There is one assignment per data entry, in order, holding that entry's data. The unit count is the sum of the `unit_data` lengths. No assignment id and no unit's assignment id is below the allocator's starting id. |
| TaskLauncher.CreateAssignments | mephisto/core/task_launcher.py:64-97 | `units` and `unlaunched_units` are extended with the same units in the same order. Existing assignments are kept, and the new ones follow in data order. `launched_units`, the data list and the limit do not change. The appended assignments and units, and the allocator's next id, are those of one pass over the data list (`CreateAll`). |
| TaskLauncher.CreatedUnitsBelongToCreatedAssignments | mephisto/core/task_launcher.py:71-97 | Every unit created in a pass belongs to an assignment created in the same pass. |
| TaskLauncher.CreateAssignmentsGroupsUnits | mephisto/core/task_launcher.py:64-97 | On the launcher, each new assignment owns exactly `len(unit_data)` of the appended units, numbered 0 to n-1. Every appended unit belongs to one of the new assignments. |
| TaskLauncher.UnitsNumberedPerAssignment | mephisto/core/task_launcher.py:82-97 | Each entry's assignment owns exactly `len(unit_data)` of the created units, and their `unit_idx` runs from 0 to n-1. |
| TaskLauncher.CreatedUnitIdsFresh | mephisto/core/task_launcher.py:85-97 | The created units have strictly increasing ids, all newly allocated. |
| TaskLauncher.CreatedAssignmentIdsFresh | mephisto/core/task_launcher.py:72-81 | The created assignments have strictly increasing ids, all newly allocated. |
| TaskLauncher.ExpireUnits | mephisto/core/task_launcher.py:135-145 | `expire` is attempted on every unit, in order, even after earlier calls raise. A unit's attempt is logged as failed iff that call raises. |
| UnitThrottle.StillRunning | mephisto/core/task_launcher.py:103-110 | A launched unit is kept iff its status is LAUNCHED or ASSIGNED. |
| UnitThrottle.StillRunningIsFilter | mephisto/core/task_launcher.py:103-110 | Pruning keeps each still-running unit exactly as many times as it was launched and drops every other unit, so the running count the limit is checked against is exact. |
| UnitThrottle.Capacity | mephisto/core/task_launcher.py:112-118 | A round launches no more units than are waiting, never exceeds the free slots, and stops short of the waiting count only when the limit is reached. |
| UnitThrottle.LaunchRound | mephisto/core/task_launcher.py:99-118 | The round as documented. Yielded + still-waiting is the old waiting list. Launched = the units still running + those yielded. After a yield the launched count is at most the limit. A unit is left waiting only when the limit is full. The bound is preserved. A launched unit stays launched iff it is still running. |
| UnitThrottle.RoundKeepsListsApart | mephisto/core/task_launcher.py:113-118 | Each yielded unit moves from the waiting list to the launched list. The two lists stay disjoint, and neither the waiting list nor the yield repeats a unit. |
| UnitThrottle.GenerateUnits | mephisto/core/task_launcher.py:99-123 | Over any number of rounds, yielded + still-waiting is the original waiting list. The generator finishes iff a round leaves nothing waiting. The concurrency bound holds throughout. |
| UnitThrottle.NoUnitYieldedTwice | mephisto/core/task_launcher.py:113-123 | Across all rounds no unit is yielded twice, and no unit is both launched and waiting. |
| UnitThrottle.PruneAsWritten | mephisto/core/task_launcher.py:103-110 | The first loop as written never lengthens the launched list. |
| UnitThrottle.PruneAsWrittenCrashesIff | mephisto/core/task_launcher.py:103-110 | The first loop as written raises IndexError iff some launched unit other than the last has stopped running. |
| UnitThrottle.PruneAsWrittenAgrees | mephisto/core/task_launcher.py:103-110 | When the first loop as written does not raise, it keeps exactly the units the documented round keeps. |
| UnitThrottle.LaunchAsWritten | mephisto/core/task_launcher.py:112-118 | The second loop as written launches at most as many units as there are free slots. The launched list ends as the old launched list followed by exactly the units it yields, in yield order. |
| UnitThrottle.LaunchAsWrittenConserves | mephisto/core/task_launcher.py:112-118 | The second loop as written loses and duplicates no unit: yielded + still-waiting is a permutation of the waiting list. |
| UnitThrottle.LaunchRoundAsWritten | mephisto/core/task_launcher.py:102-118 | A round as written ends with the pruned list followed by the units it yielded. After a yield the launched count is at most the limit, and the bound is preserved. The waiting units are conserved. |
| UnitThrottle.LaunchAsWrittenYieldsEveryOther | mephisto/core/task_launcher.py:112-118 | The second loop as written yields the waiting units at positions 0, 2, 4, ..., as many as min(free slots, ceil(m/2)) for m waiting units. It raises IndexError iff m >= 2 and the free slots exceed ceil(m/2). |
| UnitThrottle.PruneCrashExample | mephisto/core/task_launcher.py:103-110 | Two launched units that have both finished make the written loop raise, while the documented round simply drops both. |
| UnitThrottle.LaunchSkipExample | mephisto/core/task_launcher.py:112-118 | With four waiting units and two free slots, the written loop launches the first and the third, while the documented round launches the first two. |
| UnitThrottle.LaunchCrashExample | mephisto/core/task_launcher.py:112-118 | With two waiting units and two free slots, the written loop launches one and then raises, while the documented round launches both. |
| UnitThrottle.DefaultLimitAgrees | mephisto/core/task_launcher.py:43-118 | With the default limit of one concurrent unit, a written round equals the documented round. |

## Left out

- Threads, joins and wall-clock polling: `_channel_handling_thread`, `launch_sending_thread`, `_request_status_update`, `launch_units`, `_launch_limited_units` and the `time.sleep` in `generate_units`. They are concerned with concurrency and timing. `GenerateUnits` runs one round per status snapshot it is given, so it says nothing about rounds beyond the last snapshot.
- Channel set-up and teardown: `register_channel` and its alive-handshake retry loop, `_on_channel_open`, `_send_alive`, `close_channel`, `shutdown`, `register_job`, `shutdown_job`. These are network I/O. The set of registered channels is an input.
- The handler bodies of `_on_act`, `_on_submit_onboarding`, `_register_worker`, `_get_init_data`, `_request_action` and the `_launch_and_run_*` threads, plus the qualification checks. These bodies are in `mephisto/core/supervisor.py`, but they mostly call into database, provider, file and thread code in files this model does not include. Of these, `_on_act`, `_on_submit_onboarding`, `_register_worker` and `_get_init_data` are reached from `_on_message`, and only that routing is modelled (`Packets.Dispatch`). `_request_action` and the `_launch_and_run_*` threads are not modelled at all.
- `_register_agent_from_onboarding`, the hand-off from a finished onboarding back to registration. It is outside the modelled core. The operations it calls in turn are modelled: `SendQueues.TrySendAgentMessages`, `StatusReconcile.SendStatusUpdate` and `Registration.AssignUnitToAgent`.
- The launch branch of `_assign_unit_to_agent` (`clear_reservation`, the unit and assignment threads, the WAITING/IN_TASK updates). This is thread start-up and database calls.
- StatusReconcile.Decide: `agent.get_status()` (a method of `Agent`, in a file this model does not include) is modelled as a read of the local status with no side effect. `IgnoredItemChangesNothing` and `FinalStatusKept` rely on this.
- `Agent.update_status` is not part of this model. An adopted status sets only the local status; any flag the method sets is not modelled.
- `AgentState.valid()`, `complete()` and the status constants are not part of this model. The lists are the `StatusSets` input. The literal status "completed" sent by `_mark_agent_done` is modelled as `Completed`.
- The sender id "mephisto" is the same on every packet the supervisor builds and is left implicit. The observations queued for an agent are opaque here, their sender included. The onboarding reply's `onboard_data` is left out: it comes from the blueprint.
- The database is an allocator of fresh ids (a counter). The write of assignment data to storage, and the unit reward, provider and sandbox fields, are left out; the data each assignment holds is modelled (`Assignment.data`).
- The send result that `_send_status_update` and `_mark_agent_done` get back is ignored, as in the source.
- The status map `_handle_updated_agent_status` receives is a dictionary, so its keys are distinct. It is modelled as a sequence of distinct (agent id, status) items in iteration order.
- `SendMessageQueue`: a packet whose receiver has no registered channel is popped before the lookup raises, so it is dropped. The model records it as `lost` instead of treating it as a defect.
- `PruneAsWritten`: when the first loop raises, the list it leaves is the partly pruned list. The generator ends there, so nothing after the crash is modelled.

## Findings

| source | as written | input that shows it | evidently intended | confidence | as-written member | corrected member |
|---|---|---|---|---|---|---|
| mephisto/core/task_launcher.py:103-110 | `for i in range(len(self.launched_units))` pops index i from the list it is iterating | two launched units, both no longer LAUNCHED or ASSIGNED: after the first pop, reading index 1 raises IndexError | drop every launched unit that stopped running | high; not executed | UnitThrottle.PruneCrashExample | UnitThrottle.LaunchRound |
| mephisto/core/task_launcher.py:113-118 | pops index i from `unlaunched_units` and then moves on to i + 1, which skips the unit that slid into index i | four waiting units, two free slots: units 1 and 3 are launched instead of 1 and 2 | launch the first `num_avail_units` waiting units, in order | high; not executed | UnitThrottle.LaunchSkipExample | UnitThrottle.LaunchRound |
| mephisto/core/task_launcher.py:113-118 | the same loop reads index i after earlier pops have shortened the list | two waiting units, two free slots: one is launched, then reading index 1 raises IndexError | launch both | high; not executed | UnitThrottle.LaunchCrashExample | UnitThrottle.LaunchRound |
| mephisto/core/supervisor.py:519-527 | queues a reply with no agent for a worker with no valid unit, but does not return | a new worker with no valid unit: the request gets that reply and then a second one (no agent, or an onboarding agent) | return after the no-agent reply, as every other reply in the function does | medium; not executed | Registration.AsWrittenRepliesTwiceWithoutUnits | Registration.RegisterAgent |

With the default `max_num_concurrent_units = 1`, none of the three `generate_units` findings can show
(`UnitThrottle.DefaultLimitAgrees`).

=== FILE: agent_status.dfy ===
/**
  Agent statuses as the supervisor sees them, and the table of texts it shows a worker
  whose task ended without success (STATUS_TO_TEXT_MAP in mephisto/core/supervisor.py).
 */
module AgentStatus {
  import opened Wrappers

  /** The AgentState status constants the supervisor names; any other status the
      data model defines is `Other`. `NoStatus` is STATUS_NONE. `Other` stands only for a
      status outside the named constants: it never holds the string of one of them (that
      string is the named constructor here), so each source status has exactly one value. */
  datatype Status =
    | NoStatus
    | Onboarding
    | Waiting
    | InTask
    | Completed
    | Disconnect
    | Timeout
    | PartnerDisconnect
    | Expired
    | Other(name: string)

  /** The two status lists AgentState exposes, `valid()` and `complete()`. They are
      defined outside the supervisor, so they are inputs of every rule that reads them. */
  datatype StatusSets = StatusSets(valid: set<Status>, complete: set<Status>)

  const ExpiredText: string :=
    "This task is no longer available to be completed. Please return it and try a different task"
  const TimeoutText: string :=
    "You took to long to respond to this task, and have timed out. The task is no longer available, please return it."
  const DisconnectText: string :=
    "You have disconnected from our server during the duration of the task. If you have done substantial work, please reach out to see if we can recover it. "
  const PartnerDisconnectText: string :=
    "One of your partners has disconnected while working on this task. We won't penalize you for them leaving, so please submit this task as is."

  /** The text shown when the task stopped for the given status; `None` for a status the
      table has no entry for (the `.get` lookup of the source). */
  function DoneText(s: Status): (t: Option<string>)
    ensures t.Some? <==> s == Expired || s == Timeout || s == Disconnect || s == PartnerDisconnect
    ensures t.Some? ==> |t.value| > 0
    ensures s == Expired ==> t == Some(ExpiredText)
    ensures s == Timeout ==> t == Some(TimeoutText)
    ensures s == Disconnect ==> t == Some(DisconnectText)
    ensures s == PartnerDisconnect ==> t == Some(PartnerDisconnectText)
  {
    match s
    case Expired => Some(ExpiredText)
    case Timeout => Some(TimeoutText)
    case Disconnect => Some(DisconnectText)
    case PartnerDisconnect => Some(PartnerDisconnectText)
    case _ => None
  }

  /** Each text names one reason: a frontend can tell the four statuses apart from the text alone. */
  lemma DoneTextInjective(a: Status, b: Status)
    requires DoneText(a).Some? && DoneText(a) == DoneText(b)
    ensures a == b
  {
    // the four texts have different lengths
    assert |ExpiredText| == 91 && |TimeoutText| == 112;
    assert |DisconnectText| == 152 && |PartnerDisconnectText| == 139;
  }
}

=== FILE: packets.dfy ===
/**
  The packets the supervisor exchanges with channels, and the routing of an incoming
  packet to its handler (`Supervisor._on_message`).
 */
module Packets {
  import opened Wrappers
  import opened AgentStatus

  type AgentId = string
  type ChannelId = string
  type RequestId = string
  type RegistrationId = string

  /** The PACKET_TYPE_* constants the supervisor imports. */
  datatype PacketType =
    | Alive
    | AgentAction
    | NewAgent
    | NewWorker
    | RequestAgentStatus
    | ReturnAgentStatus
    | InitData
    | GetInitData
    | ProviderDetails
    | SubmitOnboarding
    | RequestAction
    | UpdateAgentStatus

  /** Outgoing packets. Every packet the supervisor builds is sent from the system
      channel id "mephisto", so the sender is left implicit.
      - `Details`: a PROVIDER_DETAILS reply to a registration request; `agentId` is the
        agent created or found (None when there is none), `onboarding` marks a reply
        that carries onboarding data.
      - `StatusUpdate`: an UPDATE_AGENT_STATUS push to an agent's frontend.
      - `Observation`: any other packet, opaque here (agent observations). */
  datatype Packet =
    | Details(receiver: ChannelId, requestId: RequestId, agentId: Option<AgentId>, onboarding: bool)
    | StatusUpdate(receiver: AgentId, status: Status, doneText: Option<string>, taskDone: bool)
    | Observation(kind: PacketType, receiver: string, body: string)

  /** `packet.receiver_id` */
  function Receiver(p: Packet): string
  {
    match p
    case Details(r, _, _, _) => r
    case StatusUpdate(r, _, _, _) => r
    case Observation(_, r, _) => r
  }

  /** The handlers `_on_message` can route to. */
  datatype Handler =
    | OnAct
    | RegisterAgentHandler
    | SubmitOnboardingHandler
    | RegisterWorker
    | GetInitDataHandler
    | HandleUpdatedAgentStatus

  /** The packet type each handler serves. */
  function ServedType(h: Handler): PacketType
  {
    match h
    case OnAct => AgentAction
    case RegisterAgentHandler => NewAgent
    case SubmitOnboardingHandler => SubmitOnboarding
    case RegisterWorker => NewWorker
    case GetInitDataHandler => GetInitData
    case HandleUpdatedAgentStatus => ReturnAgentStatus
  }

  /** Routing of an incoming packet; `None` is the "Unexpected packet type" exception
      raised for every type the supervisor only ever sends. */
  function Dispatch(t: PacketType): (h: Option<Handler>)
    ensures h.Some? ==> ServedType(h.value) == t
    ensures h.None? <==>
      t in {Alive, RequestAgentStatus, InitData, ProviderDetails, RequestAction, UpdateAgentStatus}
  {
    match t
    case AgentAction => Some(OnAct)
    case NewAgent => Some(RegisterAgentHandler)
    case SubmitOnboarding => Some(SubmitOnboardingHandler)
    case NewWorker => Some(RegisterWorker)
    case GetInitData => Some(GetInitDataHandler)
    case ReturnAgentStatus => Some(HandleUpdatedAgentStatus)
    case _ => None
  }

  /** Every handler is reachable, and only through the packet type it serves. */
  lemma DispatchIsInverseOfServedType(h: Handler, t: PacketType)
    ensures Dispatch(ServedType(h)) == Some(h)
    ensures Dispatch(t) == Some(h) <==> t == ServedType(h)
  {
  }
}

=== FILE: registration.dfy ===
/**
  Agent registration: the reconnection path and the new-agent path of
  `Supervisor._register_agent`, and the unit reservation loop and bookkeeping of
  `Supervisor._assign_unit_to_agent`. Database, worker and crowd-provider calls are
  inputs: which units the task run will reserve, which units are valid for the worker,
  the onboarding verdict, and the agent the provider creates.
 */
module Registration {
  import opened Wrappers
  import opened AgentStatus
  import opened Packets
  import opened SupervisorState

  /** What the supervisor reads from a NEW_AGENT packet: its request id and the
      provider's `agent_registration_id`. */
  datatype Request = Request(requestId: RequestId, registrationId: RegistrationId)

  /** The agent the crowd provider creates for a reserved unit. */
  datatype NewAgentRecord = NewAgentRecord(id: AgentId, status: Status)

  /** The onboarding verdict for a worker registering anew: no onboarding required (or
      already passed), disqualified by earlier onboarding, or sent to onboarding under
      the id of the newly created onboarding agent. */
  datatype Gate = Direct | Disqualified | Onboard(onboardId: AgentId)

  /** The answers of the calls `_register_agent` makes for a new agent. `grants` holds
      the units `task_run.reserve_unit` would reserve. */
  datatype RegistrationEnv = RegistrationEnv(
    validUnits: seq<UnitId>,
    gate: Gate,
    grants: set<UnitId>,
    agent: NewAgentRecord)

  /** A registration id indexing an agent that `agents` no longer holds: the KeyError of
      the reconnection path. */
  datatype RegisterError = UnknownAgent(id: AgentId)

  /** The PROVIDER_DETAILS reply to a registration request. */
  function Reply(channel: ChannelId, req: Request, agentId: Option<AgentId>): Packet
  {
    Details(channel, req.requestId, agentId, false)
  }

  // ---------------------------------------------------------------------------
  // Reservation loop

  datatype Reservation = NoUnit | Reserved(index: nat, unit: UnitId)

  /** Tries the units in list order and stops at the first one reserved; also returns the
      units never tried (what `units.pop(0)` leaves in the caller's list). */
  function ReserveFirst(units: seq<UnitId>, grants: set<UnitId>): (r: (Reservation, seq<UnitId>))
    ensures r.0.NoUnit? ==> r.1 == [] && forall i :: 0 <= i < |units| ==> units[i] !in grants
    ensures r.0.Reserved? ==>
      && r.0.index < |units| && units[r.0.index] == r.0.unit && r.0.unit in grants
      && (forall j :: 0 <= j < r.0.index ==> units[j] !in grants)
      && r.1 == units[r.0.index + 1..]
  {
    if units == [] then (NoUnit, [])
    else if units[0] in grants then (Reserved(0, units[0]), units[1..])
    else
      var r := ReserveFirst(units[1..], grants);
      assert forall j :: 1 <= j < |units| ==> units[j] == units[1..][j - 1];
      match r.0
      case NoUnit => (NoUnit, r.1)
      case Reserved(i, u) =>
        assert units[1..][i + 1..] == units[i + 2..];
        (Reserved(i + 1, u), r.1)
  }

  /** `_assign_unit_to_agent` up to launching the unit: reserve the first reservable unit;
      reply with no agent if there is none, otherwise register the provider's new agent
      under both its agent id and its registration id, bound to the reserved unit and to
      the channel the request came on. */
  function AssignUnitToAgent(
    sup: Supervisor, channel: ChannelId, req: Request, units: seq<UnitId>, grants: set<UnitId>,
    agent: NewAgentRecord): (s: Supervisor)
    ensures s.channels == sup.channels && s.onboardingRequests == sup.onboardingRequests
    ensures |s.queue| == |sup.queue| + 1 && s.queue[..|sup.queue|] == sup.queue
    ensures var reply := s.queue[|sup.queue|];
      && reply.Details? && reply.receiver == channel && reply.requestId == req.requestId
      && !reply.onboarding
      && (reply.agentId.None? <==> forall i :: 0 <= i < |units| ==> units[i] !in grants)
      && (reply.agentId.Some? ==> reply.agentId.value == agent.id)
    ensures s.queue[|sup.queue|].agentId.None? ==>
      s.agents == sup.agents && s.byRegistration == sup.byRegistration
    ensures s.queue[|sup.queue|].agentId.Some? ==>
      && ReserveFirst(units, grants).0.Reserved?
      && s.agents == sup.agents[agent.id :=
           AgentInfo(agent.status, false, channel, [], Some(ReserveFirst(units, grants).0.unit))]
      && s.byRegistration == sup.byRegistration[req.registrationId := agent.id]
    ensures IndexWf(sup) ==> IndexWf(s)
  {
    match ReserveFirst(units, grants).0
    case NoUnit => sup.(queue := sup.queue + [Reply(channel, req, None)])
    case Reserved(_, u) =>
      sup.(queue := sup.queue + [Reply(channel, req, Some(agent.id))],
           agents := sup.agents[agent.id := AgentInfo(agent.status, false, channel, [], Some(u))],
           byRegistration := sup.byRegistration[req.registrationId := agent.id])
  }

  // ---------------------------------------------------------------------------
  // Registration

  /** The reconnection path of `_register_agent`: the known agent is kept and only its
      channel is rebound to the one the request came on; the reply carries its id. */
  function Reconnect(sup: Supervisor, channel: ChannelId, req: Request): (r: Result<Supervisor, RegisterError>)
    requires req.registrationId in sup.byRegistration
    ensures var id := sup.byRegistration[req.registrationId];
      r.Err? <==> id !in sup.agents
    ensures r.Ok? ==>
      var id := sup.byRegistration[req.registrationId];
      && r.value.agents.Keys == sup.agents.Keys
      && r.value.agents[id] == sup.agents[id].(usedChannel := channel)
      && (forall a :: a in sup.agents && a != id ==> r.value.agents[a] == sup.agents[a])
      && r.value.byRegistration == sup.byRegistration
      && r.value.onboardingRequests == sup.onboardingRequests
      && r.value.channels == sup.channels
      && r.value.queue == sup.queue + [Reply(channel, req, Some(id))]
  {
    var id := sup.byRegistration[req.registrationId];
    if id !in sup.agents then Err(UnknownAgent(id))
    else
      Ok(sup.(agents := sup.agents[id := sup.agents[id].(usedChannel := channel)],
              queue := sup.queue + [Reply(channel, req, Some(id))]))
  }

  /** The part of the new-agent path after the unit check: a disqualified worker gets a
      reply with no agent; a worker who needs onboarding gets a tracked onboarding agent
      (status ONBOARDING, request remembered) and a reply naming it; anyone else goes to
      unit assignment with the valid units. */
  function AdmitNewAgent(sup: Supervisor, channel: ChannelId, req: Request, env: RegistrationEnv): (s: Supervisor)
    ensures s.channels == sup.channels
    ensures |s.queue| == |sup.queue| + 1 && s.queue[..|sup.queue|] == sup.queue
    ensures var reply := s.queue[|sup.queue|];
      reply.Details? && reply.receiver == channel && reply.requestId == req.requestId
    ensures IndexWf(sup) ==> IndexWf(s)
    ensures env.gate.Disqualified? ==> s == sup.(queue := sup.queue + [Reply(channel, req, None)])
    ensures env.gate.Onboard? ==>
      && s.queue[|sup.queue|] == Details(channel, req.requestId, Some(env.gate.onboardId), true)
      && s.agents == sup.agents[env.gate.onboardId := AgentInfo(Onboarding, false, channel, [], None)]
      && s.onboardingRequests == sup.onboardingRequests[env.gate.onboardId := req.requestId]
      && s.byRegistration == sup.byRegistration
    ensures env.gate.Direct? ==> s == AssignUnitToAgent(sup, channel, req, env.validUnits, env.grants, env.agent)
  {
    match env.gate
    case Disqualified => sup.(queue := sup.queue + [Reply(channel, req, None)])
    case Onboard(oid) =>
      sup.(agents := sup.agents[oid := AgentInfo(Onboarding, false, channel, [], None)],
           onboardingRequests := sup.onboardingRequests[oid := req.requestId],
           queue := sup.queue + [Details(channel, req.requestId, Some(oid), true)])
    case Direct => AssignUnitToAgent(sup, channel, req, env.validUnits, env.grants, env.agent)
  }

  /** `_register_agent` as written: with no valid unit it queues a reply with no agent
      and then carries on, so the request is answered a second time. */
  function RegisterAgentAsWritten(sup: Supervisor, channel: ChannelId, req: Request, env: RegistrationEnv)
    : (r: Result<Supervisor, RegisterError>)
    ensures r.Err? ==> req.registrationId in sup.byRegistration
    ensures r.Ok? && req.registrationId !in sup.byRegistration ==>
      |r.value.queue| == |sup.queue| + (if |env.validUnits| == 0 then 2 else 1)
  {
    if req.registrationId in sup.byRegistration then Reconnect(sup, channel, req)
    else
      var s1 := if |env.validUnits| == 0 then sup.(queue := sup.queue + [Reply(channel, req, None)]) else sup;
      Ok(AdmitNewAgent(s1, channel, req, env))
  }

  /** A worker with no valid unit gets two replies to one registration request. */
  lemma AsWrittenRepliesTwiceWithoutUnits(sup: Supervisor, channel: ChannelId, req: Request, env: RegistrationEnv)
    requires req.registrationId !in sup.byRegistration && env.validUnits == []
    ensures var r := RegisterAgentAsWritten(sup, channel, req, env);
      && r.Ok? && |r.value.queue| == |sup.queue| + 2
      && r.value.queue[|sup.queue|] == Reply(channel, req, None)
      && r.value.queue[|sup.queue| + 1].Details?
      && r.value.queue[|sup.queue| + 1].requestId == req.requestId
  {
    var s1 := sup.(queue := sup.queue + [Reply(channel, req, None)]);
    var s := AdmitNewAgent(s1, channel, req, env);
    assert s.queue[..|s1.queue|] == s1.queue;
    assert s.queue[|sup.queue|] == s1.queue[|sup.queue|];
  }

  /** `_register_agent` with a `return` after the reply for a worker with no valid unit,
      as every other reply of the function has: each request is answered exactly once. */
  function RegisterAgent(sup: Supervisor, channel: ChannelId, req: Request, env: RegistrationEnv)
    : (r: Result<Supervisor, RegisterError>)
    ensures r.Err? <==>
      req.registrationId in sup.byRegistration && sup.byRegistration[req.registrationId] !in sup.agents
    ensures r.Ok? ==>
      && |r.value.queue| == |sup.queue| + 1 && r.value.queue[..|sup.queue|] == sup.queue
      && r.value.queue[|sup.queue|].Details?
      && r.value.queue[|sup.queue|].receiver == channel
      && r.value.queue[|sup.queue|].requestId == req.requestId
    ensures r.Ok? && |env.validUnits| == 0 && req.registrationId !in sup.byRegistration ==>
      r.value == sup.(queue := sup.queue + [Reply(channel, req, None)])
    ensures r.Ok? && req.registrationId !in sup.byRegistration && |env.validUnits| > 0 ==>
      r.value == AdmitNewAgent(sup, channel, req, env)
    ensures IndexWf(sup) ==> r.Ok? && IndexWf(r.value)
    ensures r.Ok? && req.registrationId in sup.byRegistration ==>
      var id := sup.byRegistration[req.registrationId];
      && r.value.agents.Keys == sup.agents.Keys
      && r.value.byRegistration == sup.byRegistration
      && r.value.agents[id] == sup.agents[id].(usedChannel := channel)
      && r.value.queue[|sup.queue|].agentId == Some(id)
    ensures req.registrationId in sup.byRegistration ==> r == Reconnect(sup, channel, req)
    ensures r.Ok? && req.registrationId in sup.byRegistration ==>
      var id := sup.byRegistration[req.registrationId];
      r.value == sup.(agents := sup.agents[id := sup.agents[id].(usedChannel := channel)],
                      queue := sup.queue + [Details(channel, req.requestId, Some(id), false)])
  {
    if req.registrationId in sup.byRegistration then Reconnect(sup, channel, req)
    else if |env.validUnits| == 0 then Ok(sup.(queue := sup.queue + [Reply(channel, req, None)]))
    else Ok(AdmitNewAgent(sup, channel, req, env))
  }
}

=== FILE: send_queues.dfy ===
/**
  Draining the outgoing packet queues: the per-agent observation queue
  (`Supervisor._try_send_agent_messages`) and the system message queue
  (`Supervisor._send_message_queue`). The channel's answers are an input: `accepts[i]`
  is what `channel.send` returns on the i-th send attempt of the call.
 */
module SendQueues {
  import opened Wrappers
  import opened Packets
  import opened SupervisorState

  /** Sends an agent's pending observations in order over the channel it last used and
      stops at the first refused send, which goes back to the head of the queue.
      `raised` is the KeyError of an unknown channel, raised before anything is taken
      from the queue. */
  method TrySendAgentMessages(info: AgentInfo, channels: set<ChannelId>, accepts: seq<bool>)
    returns (info': AgentInfo, sent: seq<Packet>, raised: bool)
    requires |accepts| >= |info.pending|
    ensures raised <==> info.usedChannel !in channels
    ensures raised ==> info' == info && sent == []
    ensures info' == info.(pending := info'.pending)
    ensures sent + info'.pending == info.pending
    ensures forall i :: 0 <= i < |sent| ==> accepts[i]
    ensures !raised && info'.pending != [] ==> !accepts[|sent|]
  {
    if info.usedChannel !in channels {
      return info, [], true;
    }
    var pending := info.pending;
    sent := [];
    while |pending| > 0
      invariant sent + pending == info.pending
      invariant forall i :: 0 <= i < |sent| ==> accepts[i]
    {
      var obs := pending[0];
      pending := pending[1..];
      if !accepts[|sent|] {
        // a refused send goes back to the head of the queue for a later attempt
        pending := [obs] + pending;
        return info.(pending := pending), sent, false;
      }
      sent := sent + [obs];
    }
    return info.(pending := pending), sent, false;
  }

  /** Sends the system queue in order, each packet over the channel named by its
      receiver, and stops at the first refused send, which goes back to the head of the
      queue. A packet whose receiver has no registered channel is taken off the queue
      before the lookup raises, so it is `lost`: neither sent nor queued. */
  method SendMessageQueue(queue: seq<Packet>, channels: set<ChannelId>, accepts: seq<bool>)
    returns (sent: seq<Packet>, queue': seq<Packet>, lost: Option<Packet>)
    requires |accepts| >= |queue|
    ensures lost.None? ==> sent + queue' == queue
    ensures lost.Some? ==> sent + [lost.value] + queue' == queue && Receiver(lost.value) !in channels
    ensures forall i :: 0 <= i < |sent| ==> accepts[i] && Receiver(sent[i]) in channels
    ensures lost.None? && queue' != [] ==> Receiver(queue'[0]) in channels && !accepts[|sent|]
    ensures (forall p :: p in queue ==> Receiver(p) in channels) ==> lost.None?
  {
    var q := queue;
    sent := [];
    while |q| > 0
      invariant sent + q == queue
      invariant forall i :: 0 <= i < |sent| ==> accepts[i] && Receiver(sent[i]) in channels
    {
      var obs := q[0];
      assert queue[|sent|] == obs;
      q := q[1..];
      if Receiver(obs) !in channels {
        assert obs in queue;
        return sent, q, Some(obs);
      }
      if !accepts[|sent|] {
        q := [obs] + q;
        return sent, q, None;
      }
      sent := sent + [obs];
    }
    return sent, q, None;
  }
}

=== FILE: status_reconcile.dfy ===
/**
  How the supervisor merges a server-reported status map into its own agent records
  (`Supervisor._handle_updated_agent_status`), and the two status pushes it sends to a
  frontend (`_send_status_update`, `_mark_agent_done`).
 */
module StatusReconcile {
  import opened Wrappers
  import opened AgentStatus
  import opened Packets
  import opened SupervisorState

  /** The reported status map, as the (agent id, status) items of the Python dict in
      iteration order. */
  type Report = seq<(AgentId, Status)>

  /** Dict keys are unique. */
  ghost predicate DistinctIds(report: Report)
  {
    forall i, j :: 0 <= i < j < |report| ==> report[i].0 != report[j].0
  }

  /** The status reported for `id`, if the report names it. */
  function ReportedFor(report: Report, id: AgentId): (r: Option<Status>)
    ensures r.None? <==> forall k :: 0 <= k < |report| ==> report[k].0 != id
    ensures r.Some? ==> exists k :: 0 <= k < |report| && report[k] == (id, r.value)
  {
    if report == [] then None
    else if report[0].0 == id then Some(report[0].1)
    else
      var r := ReportedFor(report[1..], id);
      assert forall k :: 1 <= k < |report| ==> report[k] == report[1..][k - 1];
      r
  }

  // ---------------------------------------------------------------------------
  // Pushes to a frontend

  /** The UPDATE_AGENT_STATUS packet `_send_status_update` builds for an agent. */
  function StatusPacket(id: AgentId, info: AgentInfo): (p: Packet)
    ensures p.StatusUpdate? && p.receiver == id && p.status == info.status
    ensures p.taskDone <==> info.status == PartnerDisconnect
    ensures p.doneText.Some? <==> info.status in {Expired, Timeout, Disconnect, PartnerDisconnect}
    ensures p.doneText == DoneText(info.status)
  {
    StatusUpdate(id, info.status, DoneText(info.status), info.status == PartnerDisconnect)
  }

  /** `_send_status_update`: the packet handed to the agent's channel, or the unknown
      channel id the lookup raised on. The channel's send result is not read. */
  function SendStatusUpdate(id: AgentId, info: AgentInfo, channels: set<ChannelId>): (r: Result<Packet, ChannelId>)
    ensures r.Err? <==> info.usedChannel !in channels
    ensures r.Err? ==> r.error == info.usedChannel
    ensures r.Ok? ==> r.value == StatusPacket(id, info)
  {
    if info.usedChannel in channels then Ok(StatusPacket(id, info)) else Err(info.usedChannel)
  }

  const MarkDoneText: string := "You have completed this task. Please submit."

  /** `_mark_agent_done`: the packets sent to tell a frontend its task is done. The
      status text the source sends is the literal "completed", modelled as `Completed`. */
  function MarkAgentDone(id: AgentId, info: AgentInfo, channels: set<ChannelId>, sets: StatusSets)
    : (r: Result<seq<Packet>, ChannelId>)
    ensures r == Ok([]) <==> info.status in sets.complete || info.status == PartnerDisconnect
    ensures r.Err? <==> info.status !in sets.complete && info.status != PartnerDisconnect && info.usedChannel !in channels
    ensures r.Ok? ==> |r.value| <= 1
    ensures r.Ok? ==> forall p :: p in r.value ==>
      p == StatusUpdate(id, Completed, Some(MarkDoneText), true)
  {
    if info.status in sets.complete || info.status == PartnerDisconnect then Ok([])
    else if info.usedChannel !in channels then Err(info.usedChannel)
    else Ok([StatusUpdate(id, Completed, Some(MarkDoneText), true)])
  }

  /** For an agent that is not in a final status (or was told of a partner disconnect),
      exactly one of the two pushes tells the frontend that the task is done. */
  lemma TaskDoneToldExactlyOnce(id: AgentId, info: AgentInfo, channels: set<ChannelId>, sets: StatusSets)
    requires info.usedChannel in channels
    requires info.status !in sets.complete || info.status == PartnerDisconnect
    ensures SendStatusUpdate(id, info, channels).Ok?
    ensures MarkAgentDone(id, info, channels, sets).Ok?
    ensures SendStatusUpdate(id, info, channels).value.taskDone
            != (|MarkAgentDone(id, info, channels, sets).value| == 1)
  {
  }

  // ---------------------------------------------------------------------------
  // Merging one reported status

  datatype SkipReason =
    | InvalidStatus       // not in AgentState.valid()
    | Untracked           // no longer in `agents`
    | PendingLocalUpdate  // has_updated_status is set: the report may be stale
    | AlreadyCurrent      // same status as the local one
    | AlreadyFinal        // local status is in AgentState.complete()
    | CompletedIsLocal    // STATUS_COMPLETED can only be set locally

  datatype Action = Skip(reason: SkipReason) | Push | Adopt

  /** What the supervisor does with one reported (agent id, status) item. */
  function Decide(agents: map<AgentId, AgentInfo>, sets: StatusSets, id: AgentId, s: Status): (a: Action)
    ensures a.Push? <==> s in sets.valid && id in agents && !agents[id].hasUpdatedStatus && s == NoStatus
    ensures a.Adopt? <==>
      && s in sets.valid && id in agents && !agents[id].hasUpdatedStatus
      && s != NoStatus && s != Completed
      && s != agents[id].status && agents[id].status !in sets.complete
  {
    if s !in sets.valid then Skip(InvalidStatus)
    else if id !in agents then Skip(Untracked)
    else if agents[id].hasUpdatedStatus then Skip(PendingLocalUpdate)
    else if s == NoStatus then Push
    else if s == agents[id].status then Skip(AlreadyCurrent)
    else if agents[id].status in sets.complete then Skip(AlreadyFinal)
    else if s == Completed then Skip(CompletedIsLocal)
    else Adopt
  }

  /** The result of merging a report: the agent records, the status packets handed to
      channels, and the unknown channel id the merge raised on (if it did; the items
      after that one are not processed). */
  datatype Reconciled = Reconciled(agents: map<AgentId, AgentInfo>, pushed: seq<Packet>, failure: Option<ChannelId>)

  /** `_handle_updated_agent_status`, item by item in report order. */
  function Reconcile(agents: map<AgentId, AgentInfo>, channels: set<ChannelId>, sets: StatusSets, report: Report)
    : (r: Reconciled)
    ensures r.agents.Keys == agents.Keys
    decreases |report|
  {
    if report == [] then Reconciled(agents, [], None)
    else
      var id, s := report[0].0, report[0].1;
      match Decide(agents, sets, id, s)
      case Skip(_) => Reconcile(agents, channels, sets, report[1..])
      case Adopt => Reconcile(agents[id := agents[id].(status := s)], channels, sets, report[1..])
      case Push =>
        match SendStatusUpdate(id, agents[id], channels)
        case Err(c) => Reconciled(agents, [], Some(c))
        case Ok(p) =>
          var rest := Reconcile(agents, channels, sets, report[1..]);
          Reconciled(rest.agents, [p] + rest.pushed, rest.failure)
  }

  // ---------------------------------------------------------------------------
  // The merge judged against the whole report at once

  /** The record an agent should end with: the reported status when the rules adopt it,
      the old record otherwise. Decided against the records as they were before the merge. */
  function ExpectedInfo(agents: map<AgentId, AgentInfo>, sets: StatusSets, report: Report, id: AgentId): AgentInfo
    requires id in agents
  {
    match ReportedFor(report, id)
    case Some(s) => if Decide(agents, sets, id, s).Adopt? then agents[id].(status := s) else agents[id]
    case None => agents[id]
  }

  /** The status pushes the report calls for, in report order, built from the records as
      they were before the merge: one for each tracked agent without pending local news
      that is reported as STATUS_NONE. */
  function ExpectedPushes(agents: map<AgentId, AgentInfo>, sets: StatusSets, report: Report): (ps: seq<Packet>)
    ensures forall p :: p in ps ==>
      && p.StatusUpdate? && p.receiver in agents
      && p == StatusPacket(p.receiver, agents[p.receiver])
      && ReportedFor(report, p.receiver).Some?
      && Decide(agents, sets, p.receiver, NoStatus).Push?
    decreases |report|
  {
    if report == [] then []
    else
      var id, s := report[0].0, report[0].1;
      var rest := ExpectedPushes(agents, sets, report[1..]);
      assert forall p :: p in rest ==> ReportedFor(report, p.receiver).Some? by {
        forall p | p in rest ensures ReportedFor(report, p.receiver).Some? {
          var k :| 0 <= k < |report[1..]| && report[1..][k].0 == p.receiver;
          assert report[k + 1].0 == p.receiver;
        }
      }
      if Decide(agents, sets, id, s).Push? then [StatusPacket(id, agents[id])] + rest else rest
  }

  /** How many of `ps` are addressed to `id`. */
  function CountTo(ps: seq<Packet>, id: string): nat
  {
    if ps == [] then 0 else (if Receiver(ps[0]) == id then 1 else 0) + CountTo(ps[1..], id)
  }

  lemma {:induction false} DistinctTail(report: Report)
    requires |report| > 0 && DistinctIds(report)
    ensures DistinctIds(report[1..])
    ensures ReportedFor(report[1..], report[0].0).None?
  {
    forall k | 0 <= k < |report[1..]| ensures report[1..][k].0 != report[0].0 {
      assert report[1..][k] == report[k + 1];
    }
  }

  /** Changing one record's status, keeping every flag and key, changes no decision about
      the other agents and no push they call for. */
  lemma {:induction false} OtherDecisionsUnchanged(
    agents: map<AgentId, AgentInfo>, sets: StatusSets, report: Report, id0: AgentId, s0: Status)
    requires id0 in agents && ReportedFor(report, id0).None?
    ensures var agents1 := agents[id0 := agents[id0].(status := s0)];
      && ExpectedPushes(agents1, sets, report) == ExpectedPushes(agents, sets, report)
      && forall id :: id in agents && id != id0 ==>
           ExpectedInfo(agents1, sets, report, id) == ExpectedInfo(agents, sets, report, id)
    decreases |report|
  {
    var agents1 := agents[id0 := agents[id0].(status := s0)];
    if report != [] {
      assert report[0].0 != id0;
      assert ReportedFor(report[1..], id0).None? by {
        forall k | 0 <= k < |report[1..]| ensures report[1..][k].0 != id0 {
          assert report[1..][k] == report[k + 1];
        }
      }
      OtherDecisionsUnchanged(agents, sets, report[1..], id0, s0);
    }
  }

  /** The merge, item by item, agrees with the whole-report view: every record either is
      untouched or is its expected record; the pushes sent are a prefix of the expected
      ones; the merge raises exactly when an expected push goes to an unknown channel; and
      when it does not raise, every record is its expected record and all expected pushes
      were sent. */
  ghost predicate MeetsSpec(agents: map<AgentId, AgentInfo>, channels: set<ChannelId>, sets: StatusSets, report: Report)
  {
    var r := Reconcile(agents, channels, sets, report);
    var e := ExpectedPushes(agents, sets, report);
    && (forall id :: id in agents ==>
          r.agents[id] == agents[id] || r.agents[id] == ExpectedInfo(agents, sets, report, id))
    && r.pushed <= e
    && (r.failure.None? <==> forall p :: p in e ==> agents[p.receiver].usedChannel in channels)
    && (r.failure.None? ==>
          && r.pushed == e
          && forall id :: id in agents ==> r.agents[id] == ExpectedInfo(agents, sets, report, id))
  }

  lemma {:induction false} ReconcileMeetsSpec(
    agents: map<AgentId, AgentInfo>, channels: set<ChannelId>, sets: StatusSets, report: Report)
    requires DistinctIds(report)
    ensures MeetsSpec(agents, channels, sets, report)
    decreases |report|
  {
    if report == [] {
      return;
    }
    var id0, s0 := report[0].0, report[0].1;
    DistinctTail(report);
    match Decide(agents, sets, id0, s0)
    case Skip(_) =>
      ReconcileMeetsSpec(agents, channels, sets, report[1..]);
      SkipStep(agents, channels, sets, report);
    case Adopt =>
      ReconcileMeetsSpec(agents[id0 := agents[id0].(status := s0)], channels, sets, report[1..]);
      AdoptStep(agents, channels, sets, report);
    case Push =>
      if agents[id0].usedChannel in channels {
        ReconcileMeetsSpec(agents, channels, sets, report[1..]);
      }
      PushStep(agents, channels, sets, report);
  }

  /** The first item is the only one naming its agent, so the rest of the report decides
      every other agent exactly as the whole report does. */
  lemma {:induction false} HeadOnlyNamesItsAgent(agents: map<AgentId, AgentInfo>, sets: StatusSets, report: Report)
    requires |report| > 0 && DistinctIds(report)
    ensures ReportedFor(report, report[0].0) == Some(report[0].1)
    ensures ReportedFor(report[1..], report[0].0).None?
    ensures forall id :: id in agents && id != report[0].0 ==>
      ExpectedInfo(agents, sets, report, id) == ExpectedInfo(agents, sets, report[1..], id)
  {
    DistinctTail(report);
  }

  lemma {:induction false} SkipStep(agents: map<AgentId, AgentInfo>, channels: set<ChannelId>, sets: StatusSets, report: Report)
    requires |report| > 0 && DistinctIds(report)
    requires Decide(agents, sets, report[0].0, report[0].1).Skip?
    requires MeetsSpec(agents, channels, sets, report[1..])
    ensures MeetsSpec(agents, channels, sets, report)
  {
    HeadOnlyNamesItsAgent(agents, sets, report);
    assert ExpectedPushes(agents, sets, report) == ExpectedPushes(agents, sets, report[1..]);
    assert forall id :: id in agents ==>
      ExpectedInfo(agents, sets, report, id) == ExpectedInfo(agents, sets, report[1..], id);
  }

  lemma {:induction false} AdoptStep(agents: map<AgentId, AgentInfo>, channels: set<ChannelId>, sets: StatusSets, report: Report)
    requires |report| > 0 && DistinctIds(report)
    requires Decide(agents, sets, report[0].0, report[0].1).Adopt?
    requires MeetsSpec(agents[report[0].0 := agents[report[0].0].(status := report[0].1)], channels, sets, report[1..])
    ensures MeetsSpec(agents, channels, sets, report)
  {
    var id0, s0, rest := report[0].0, report[0].1, report[1..];
    var agents1 := agents[id0 := agents[id0].(status := s0)];
    HeadOnlyNamesItsAgent(agents, sets, report);
    OtherDecisionsUnchanged(agents, sets, rest, id0, s0);
    assert ExpectedPushes(agents, sets, report) == ExpectedPushes(agents, sets, rest);
    assert ExpectedInfo(agents1, sets, rest, id0) == ExpectedInfo(agents, sets, report, id0);
    forall p | p in ExpectedPushes(agents, sets, rest)
      ensures agents1[p.receiver].usedChannel == agents[p.receiver].usedChannel
    {
    }
  }

  lemma {:induction false} PushStep(agents: map<AgentId, AgentInfo>, channels: set<ChannelId>, sets: StatusSets, report: Report)
    requires |report| > 0 && DistinctIds(report)
    requires Decide(agents, sets, report[0].0, report[0].1).Push?
    requires agents[report[0].0].usedChannel in channels ==> MeetsSpec(agents, channels, sets, report[1..])
    ensures MeetsSpec(agents, channels, sets, report)
  {
    var id0, rest := report[0].0, report[1..];
    var p0 := StatusPacket(id0, agents[id0]);
    HeadOnlyNamesItsAgent(agents, sets, report);
    assert ExpectedPushes(agents, sets, report) == [p0] + ExpectedPushes(agents, sets, rest);
    if agents[id0].usedChannel !in channels {
      assert p0 in ExpectedPushes(agents, sets, report);
    } else {
      assert forall id :: id in agents ==>
        ExpectedInfo(agents, sets, report, id) == ExpectedInfo(agents, sets, rest, id);
    }
  }

  /** The k-th item is the report's entry for its agent. */
  lemma {:induction false} ReportedAt(report: Report, k: nat)
    requires DistinctIds(report) && k < |report|
    ensures ReportedFor(report, report[k].0) == Some(report[k].1)
  {
    var id := report[k].0;
    var j :| 0 <= j < |report| && report[j] == (id, ReportedFor(report, id).value);
    assert j == k;
  }

  // ---------------------------------------------------------------------------
  // Consequences, one per rule of the merge

  /** An agent the report does not name keeps its record and gets no push. */
  lemma {:induction false} UnreportedAgentUntouched(
    agents: map<AgentId, AgentInfo>, channels: set<ChannelId>, sets: StatusSets, report: Report, id: AgentId)
    requires DistinctIds(report) && id in agents && ReportedFor(report, id).None?
    ensures Reconcile(agents, channels, sets, report).agents[id] == agents[id]
    ensures CountTo(Reconcile(agents, channels, sets, report).pushed, id) == 0
  {
    ReconcileMeetsSpec(agents, channels, sets, report);
    PushesOnlyToNamed(agents, sets, report, Reconcile(agents, channels, sets, report).pushed, id);
  }

  lemma {:induction false} CountMonotone(a: seq<Packet>, b: seq<Packet>, id: string)
    requires a <= b
    ensures CountTo(a, id) <= CountTo(b, id)
    decreases |a|
  {
    if a != [] {
      assert a[1..] <= b[1..];
      CountMonotone(a[1..], b[1..], id);
    }
  }

  /** Pushes go only to agents reported as STATUS_NONE whose item calls for a push. */
  lemma {:induction false} PushesOnlyToNamed(agents: map<AgentId, AgentInfo>, sets: StatusSets, report: Report, pushed: seq<Packet>, id: AgentId)
    requires DistinctIds(report)
    requires pushed <= ExpectedPushes(agents, sets, report)
    requires ReportedFor(report, id) != Some(NoStatus) || !Decide(agents, sets, id, NoStatus).Push?
    ensures CountTo(pushed, id) == 0
  {
    CountExpectedPushes(agents, sets, report, id);
    CountMonotone(pushed, ExpectedPushes(agents, sets, report), id);
  }

  /** A reported status outside `valid()`, for an untracked agent, or for an agent with a
      local status change still to push changes no record, adds no record, and pushes nothing. */
  lemma {:induction false} IgnoredItemChangesNothing(
    agents: map<AgentId, AgentInfo>, channels: set<ChannelId>, sets: StatusSets, report: Report, k: nat)
    requires DistinctIds(report) && k < |report|
    requires report[k].1 !in sets.valid || report[k].0 !in agents || agents[report[k].0].hasUpdatedStatus
    ensures var r := Reconcile(agents, channels, sets, report);
      && r.agents.Keys == agents.Keys
      && (report[k].0 in agents ==> r.agents[report[k].0] == agents[report[k].0])
      && CountTo(r.pushed, report[k].0) == 0
  {
    var id := report[k].0;
    var r := Reconcile(agents, channels, sets, report);
    ReconcileMeetsSpec(agents, channels, sets, report);
    ReportedAt(report, k);
    PushesOnlyToNamed(agents, sets, report, r.pushed, id);
  }

  /** A final local status never changes, whatever is reported. */
  lemma {:induction false} FinalStatusKept(
    agents: map<AgentId, AgentInfo>, channels: set<ChannelId>, sets: StatusSets, report: Report, id: AgentId)
    requires DistinctIds(report) && id in agents && agents[id].status in sets.complete
    ensures Reconcile(agents, channels, sets, report).agents[id] == agents[id]
  {
    ReconcileMeetsSpec(agents, channels, sets, report);
  }

  /** Neither STATUS_COMPLETED nor STATUS_NONE is ever written by the merge. */
  lemma {:induction false} CompletedAndNoneNeverAdopted(
    agents: map<AgentId, AgentInfo>, channels: set<ChannelId>, sets: StatusSets, report: Report, id: AgentId)
    requires DistinctIds(report) && id in agents
    ensures var st := Reconcile(agents, channels, sets, report).agents[id].status;
      (st == Completed || st == NoStatus) ==> st == agents[id].status
  {
    ReconcileMeetsSpec(agents, channels, sets, report);
  }

  /** In every other case the reported status becomes the agent's status, and nothing
      else in its record changes. */
  lemma {:induction false} ReportedStatusAdopted(
    agents: map<AgentId, AgentInfo>, channels: set<ChannelId>, sets: StatusSets, report: Report, k: nat)
    requires DistinctIds(report) && k < |report|
    requires Reconcile(agents, channels, sets, report).failure.None?
    requires var (id, s) := report[k];
      && s in sets.valid && id in agents && !agents[id].hasUpdatedStatus
      && s != NoStatus && s != Completed && agents[id].status !in sets.complete
    ensures Reconcile(agents, channels, sets, report).agents[report[k].0]
            == agents[report[k].0].(status := report[k].1)
  {
    ReconcileMeetsSpec(agents, channels, sets, report);
    var id := report[k].0;
    ReportedAt(report, k);
  }

  lemma {:induction false} CountExpectedPushes(agents: map<AgentId, AgentInfo>, sets: StatusSets, report: Report, id: AgentId)
    requires DistinctIds(report)
    ensures CountTo(ExpectedPushes(agents, sets, report), id)
            == if ReportedFor(report, id) == Some(NoStatus) && Decide(agents, sets, id, NoStatus).Push? then 1 else 0
    decreases |report|
  {
    if report != [] {
      DistinctTail(report);
      CountExpectedPushes(agents, sets, report[1..], id);
      var rest := ExpectedPushes(agents, sets, report[1..]);
      var id0, s0 := report[0].0, report[0].1;
      if Decide(agents, sets, id0, s0).Push? {
        assert ExpectedPushes(agents, sets, report) == [StatusPacket(id0, agents[id0])] + rest;
        assert ([StatusPacket(id0, agents[id0])] + rest)[1..] == rest;
      }
    }
  }

  /** A STATUS_NONE report for a tracked agent without pending local news leaves its
      record as it was and causes exactly one status push to it. */
  lemma {:induction false} NoneReportPushesOnce(
    agents: map<AgentId, AgentInfo>, channels: set<ChannelId>, sets: StatusSets, report: Report, k: nat)
    requires DistinctIds(report) && k < |report|
    requires Reconcile(agents, channels, sets, report).failure.None?
    requires var (id, s) := report[k];
      s == NoStatus && NoStatus in sets.valid && id in agents && !agents[id].hasUpdatedStatus
    ensures var r := Reconcile(agents, channels, sets, report);
      && r.agents[report[k].0] == agents[report[k].0]
      && CountTo(r.pushed, report[k].0) == 1
  {
    ReconcileMeetsSpec(agents, channels, sets, report);
    var id := report[k].0;
    ReportedAt(report, k);
    CountExpectedPushes(agents, sets, report, id);
  }
}

=== FILE: supervisor_state.dfy ===
/**
  The bookkeeping the supervisor keeps about agents, as values.
 */
module SupervisorState {
  import opened Wrappers
  import opened AgentStatus
  import opened Packets

  type UnitId = nat

  /** `AgentInfo` together with the agent fields the supervisor reads: the agent's local
      status (`db_status`), whether it has a status change not yet pushed
      (`has_updated_status`), the channel it last used, its queue of observations not yet
      delivered (`pending_observations`), and the unit it works on (None for an
      onboarding agent). */
  datatype AgentInfo = AgentInfo(
    status: Status,
    hasUpdatedStatus: bool,
    usedChannel: ChannelId,
    pending: seq<Packet>,
    unit: Option<UnitId>)

  /** The supervisor's tracked state. `byRegistration` is `agents_by_registration_id`:
      the source stores the very AgentInfo object that `agents` holds, so the model stores
      the agent id and reads the record through `agents`. `onboardingRequests` maps an
      onboarding agent to the request id of the registration packet it came with;
      `channels` are the registered channel ids; `queue` is the system `message_queue`. */
  datatype Supervisor = Supervisor(
    agents: map<AgentId, AgentInfo>,
    byRegistration: map<RegistrationId, AgentId>,
    onboardingRequests: map<AgentId, RequestId>,
    channels: set<ChannelId>,
    queue: seq<Packet>)

  /** Every registration id resolves to a tracked agent. */
  ghost predicate IndexWf(s: Supervisor)
  {
    forall r :: r in s.byRegistration ==> s.byRegistration[r] in s.agents
  }
}

=== FILE: task_launcher.dfy ===
/**
  The bookkeeping of `TaskLauncher` (mephisto/core/task_launcher.py): creating one
  assignment and its units per data entry (`create_assignments`) and expiring every unit
  (`expire_units`). The database is an id allocator handing out fresh ids in increasing
  order; everything else it stores is left out.
 */
module TaskLauncher {

  type Id = nat

  /** One entry of the assignment data list: data shared by the assignment and one
      payload per unit (`unit_data`). */
  datatype InitData = InitData(shared: string, unitData: seq<string>)

  datatype Assignment = Assignment(id: Id, data: InitData)

  /** A unit, with the database row fields this launcher sets: its assignment and its
      index within that assignment (`unit_idx`). */
  datatype Unit = Unit(id: Id, assignmentId: Id, unitIdx: nat)

  /** The launcher's lists. `units` holds every unit created; `launched` and `unlaunched`
      split them by whether the generator has handed them out. */
  datatype Launcher = Launcher(
    dataList: seq<InitData>,
    assignments: seq<Assignment>,
    units: seq<Unit>,
    launched: seq<Unit>,
    unlaunched: seq<Unit>,
    maxConcurrent: int)

  // ---------------------------------------------------------------------------
  // create_assignments

  /** The inner loop: `count` units of assignment `aid`, created in index order with ids
      drawn from the allocator starting at `firstId`. */
  function NewUnits(aid: Id, firstId: Id, count: nat): (us: seq<Unit>)
    ensures |us| == count
    ensures forall j :: 0 <= j < count ==>
      us[j].unitIdx == j && us[j].assignmentId == aid && us[j].id == firstId + j
  {
    if count == 0 then [] else NewUnits(aid, firstId, count - 1) + [Unit(firstId + count - 1, aid, count - 1)]
  }

  function TotalUnits(dataList: seq<InitData>): nat
  {
    if dataList == [] then 0 else |dataList[0].unitData| + TotalUnits(dataList[1..])
  }

  /** What one pass over the data list creates, and the allocator's next id afterwards. */
  datatype Created = Created(assignments: seq<Assignment>, units: seq<Unit>, next: Id)

  /** The outer loop: for each entry in order, a new assignment holding the entry, then its units. */
  function CreateAll(dataList: seq<InitData>, next: Id): (c: Created)
    ensures |c.assignments| == |dataList|
    ensures forall k :: 0 <= k < |dataList| ==> c.assignments[k].data == dataList[k]
    ensures |c.units| == TotalUnits(dataList)
    ensures forall k :: 0 <= k < |c.assignments| ==> next <= c.assignments[k].id
    ensures forall i :: 0 <= i < |c.units| ==> next <= c.units[i].assignmentId
    decreases |dataList|
  {
    if dataList == [] then Created([], [], next)
    else
      var a := Assignment(next, dataList[0]);
      var us := NewUnits(next, next + 1, |dataList[0].unitData|);
      var rest := CreateAll(dataList[1..], next + 1 + |us|);
      assert forall k :: 1 <= k < |dataList| ==> dataList[k] == dataList[1..][k - 1];
      Created([a] + rest.assignments, us + rest.units, rest.next)
  }

  /** `create_assignments`: appends the new assignments, and appends the new units to
      both `units` and `unlaunched`. Returns the allocator's next id. */
  function CreateAssignments(l: Launcher, next: Id): (r: (Launcher, Id))
    ensures |r.0.units| == |l.units| + TotalUnits(l.dataList)
    ensures var added := r.0.units[|l.units|..];
      && r.0.units == l.units + added
      && r.0.unlaunched == l.unlaunched + added
      && |added| == TotalUnits(l.dataList)
    ensures |r.0.assignments| == |l.assignments| + |l.dataList|
    ensures r.0.assignments[..|l.assignments|] == l.assignments
    ensures forall k :: 0 <= k < |l.dataList| ==> r.0.assignments[|l.assignments| + k].data == l.dataList[k]
    ensures r.0.launched == l.launched && r.0.dataList == l.dataList && r.0.maxConcurrent == l.maxConcurrent
    ensures var c := CreateAll(l.dataList, next);
      && r.0.assignments[|l.assignments|..] == c.assignments
      && r.0.units[|l.units|..] == c.units
      && r.1 == c.next
  {
    var c := CreateAll(l.dataList, next);
    (l.(assignments := l.assignments + c.assignments,
        units := l.units + c.units,
        unlaunched := l.unlaunched + c.units),
     c.next)
  }

  /** The units of `us` that belong to assignment `aid`, in order. */
  function UnitsOf(us: seq<Unit>, aid: Id): seq<Unit>
  {
    if us == [] then []
    else (if us[0].assignmentId == aid then [us[0]] else []) + UnitsOf(us[1..], aid)
  }

  lemma {:induction false} UnitsOfAppend(a: seq<Unit>, b: seq<Unit>, aid: Id)
    ensures UnitsOf(a + b, aid) == UnitsOf(a, aid) + UnitsOf(b, aid)
    decreases |a|
  {
    if a == [] {
      assert a + b == b;
    } else {
      assert (a + b)[0] == a[0];
      assert (a + b)[1..] == a[1..] + b;
      UnitsOfAppend(a[1..], b, aid);
    }
  }

  lemma {:induction false} UnitsOfAll(us: seq<Unit>, aid: Id)
    requires forall i :: 0 <= i < |us| ==> us[i].assignmentId == aid
    ensures UnitsOf(us, aid) == us
    decreases |us|
  {
    if us != [] {
      UnitsOfAll(us[1..], aid);
    }
  }

  lemma {:induction false} UnitsOfNone(us: seq<Unit>, aid: Id)
    requires forall i :: 0 <= i < |us| ==> us[i].assignmentId != aid
    ensures UnitsOf(us, aid) == []
    decreases |us|
  {
    if us != [] {
      UnitsOfNone(us[1..], aid);
    }
  }

  /** One step of the outer loop: the first entry's assignment and units, then the rest. */
  lemma CreateAllStep(dataList: seq<InitData>, next: Id)
    requires dataList != []
    ensures var first := NewUnits(next, next + 1, |dataList[0].unitData|);
      var rest := CreateAll(dataList[1..], next + 1 + |first|);
      CreateAll(dataList, next) == Created([Assignment(next, dataList[0])] + rest.assignments, first + rest.units, rest.next)
  {
  }

  /** The first entry's units are exactly the units of its assignment. */
  lemma FirstBlock(first: seq<Unit>, later: seq<Unit>, aid: Id)
    requires forall i :: 0 <= i < |first| ==> first[i].assignmentId == aid
    requires forall i :: 0 <= i < |later| ==> aid < later[i].assignmentId
    ensures UnitsOf(first + later, aid) == first
  {
    UnitsOfAppend(first, later, aid);
    UnitsOfAll(first, aid);
    UnitsOfNone(later, aid);
  }

  /** A later assignment owns none of the first entry's units. */
  lemma LaterBlock(first: seq<Unit>, later: seq<Unit>, aid: Id)
    requires forall i :: 0 <= i < |first| ==> first[i].assignmentId != aid
    ensures UnitsOf(first + later, aid) == UnitsOf(later, aid)
  {
    UnitsOfAppend(first, later, aid);
    UnitsOfNone(first, aid);
  }

  /** Each data entry's assignment gets exactly `len(unit_data)` units, numbered
      0 to n-1 in creation order. */
  lemma {:induction false} UnitsNumberedPerAssignment(dataList: seq<InitData>, next: Id, k: nat)
    requires k < |dataList|
    ensures var c := CreateAll(dataList, next);
      var us := UnitsOf(c.units, c.assignments[k].id);
      && |us| == |dataList[k].unitData|
      && forall j :: 0 <= j < |us| ==> us[j].unitIdx == j
    decreases |dataList|
  {
    var first := NewUnits(next, next + 1, |dataList[0].unitData|);
    var rest := CreateAll(dataList[1..], next + 1 + |first|);
    CreateAllStep(dataList, next);
    var c := CreateAll(dataList, next);
    if k == 0 {
      FirstBlock(first, rest.units, next);
      assert UnitsOf(c.units, c.assignments[k].id) == first;
    } else {
      var aid := rest.assignments[k - 1].id;
      assert c.assignments[k].id == aid;
      assert next < aid;
      assert forall i :: 0 <= i < |first| ==> first[i].assignmentId != aid by {
        assert forall i :: 0 <= i < |first| ==> first[i].assignmentId == next;
      }
      LaterBlock(first, rest.units, aid);
      UnitsNumberedPerAssignment(dataList[1..], next + 1 + |first|, k - 1);
      assert dataList[1..][k - 1] == dataList[k];
    }
  }

  ghost predicate IncreasingIds(us: seq<Unit>)
  {
    forall i, j :: 0 <= i < j < |us| ==> us[i].id < us[j].id
  }

  ghost predicate IdsWithin(us: seq<Unit>, lo: Id, hi: Id)
  {
    forall i :: 0 <= i < |us| ==> lo <= us[i].id < hi
  }

  lemma IncreasingConcat(a: seq<Unit>, b: seq<Unit>, lo: Id, mid: Id, hi: Id)
    requires lo <= mid <= hi
    requires IncreasingIds(a) && IdsWithin(a, lo, mid)
    requires IncreasingIds(b) && IdsWithin(b, mid, hi)
    ensures IncreasingIds(a + b) && IdsWithin(a + b, lo, hi)
  {
    forall i, j | 0 <= i < j < |a + b| ensures (a + b)[i].id < (a + b)[j].id {
      if j < |a| {
      } else if i < |a| {
        assert (a + b)[j] == b[j - |a|];
      } else {
        assert (a + b)[i] == b[i - |a|] && (a + b)[j] == b[j - |a|];
      }
    }
    forall i | 0 <= i < |a + b| ensures lo <= (a + b)[i].id < hi {
      if i >= |a| {
        assert (a + b)[i] == b[i - |a|];
      }
    }
  }

  /** The database hands out fresh ids: the created units have strictly increasing ids,
      all at least `next` and below the allocator's next id. */
  lemma {:induction false} CreatedUnitIdsFresh(dataList: seq<InitData>, next: Id)
    ensures var c := CreateAll(dataList, next);
      next <= c.next && IncreasingIds(c.units) && IdsWithin(c.units, next, c.next)
    decreases |dataList|
  {
    if dataList != [] {
      var first := NewUnits(next, next + 1, |dataList[0].unitData|);
      var n1 := next + 1 + |first|;
      var rest := CreateAll(dataList[1..], n1);
      CreateAllStep(dataList, next);
      CreatedUnitIdsFresh(dataList[1..], n1);
      IncreasingConcat(first, rest.units, next, n1, rest.next);
    }
  }

  /** Likewise for the created assignments. */
  lemma {:induction false} CreatedAssignmentIdsFresh(dataList: seq<InitData>, next: Id)
    ensures var c := CreateAll(dataList, next);
      && (forall k :: 0 <= k < |c.assignments| ==> next <= c.assignments[k].id < c.next)
      && (forall i, j :: 0 <= i < j < |c.assignments| ==> c.assignments[i].id < c.assignments[j].id)
    decreases |dataList|
  {
    if dataList != [] {
      var first := NewUnits(next, next + 1, |dataList[0].unitData|);
      var n1 := next + 1 + |first|;
      var rest := CreateAll(dataList[1..], n1);
      CreateAllStep(dataList, next);
      CreatedAssignmentIdsFresh(dataList[1..], n1);
      CreatedUnitIdsFresh(dataList[1..], n1);
      var c := CreateAll(dataList, next);
      assert forall k :: 1 <= k < |c.assignments| ==> c.assignments[k] == rest.assignments[k - 1];
    }
  }

  /** Every created unit belongs to one of the assignments created in the same pass. */
  lemma {:induction false} CreatedUnitsBelongToCreatedAssignments(dataList: seq<InitData>, next: Id)
    ensures var c := CreateAll(dataList, next);
      forall i :: 0 <= i < |c.units| ==>
        exists k :: 0 <= k < |c.assignments| && c.units[i].assignmentId == c.assignments[k].id
    decreases |dataList|
  {
    if dataList != [] {
      var first := NewUnits(next, next + 1, |dataList[0].unitData|);
      var n1 := next + 1 + |first|;
      var rest := CreateAll(dataList[1..], n1);
      CreateAllStep(dataList, next);
      CreatedUnitsBelongToCreatedAssignments(dataList[1..], n1);
      var c := CreateAll(dataList, next);
      forall i | 0 <= i < |c.units|
        ensures exists k :: 0 <= k < |c.assignments| && c.units[i].assignmentId == c.assignments[k].id
      {
        if i < |first| {
          assert c.units[i] == first[i] && c.assignments[0].id == next;
        } else {
          assert c.units[i] == rest.units[i - |first|];
          var k :| 0 <= k < |rest.assignments| && rest.units[i - |first|].assignmentId == rest.assignments[k].id;
          assert c.assignments[k + 1] == rest.assignments[k];
        }
      }
    }
  }

  /** `create_assignments` as seen on the launcher: each new assignment owns exactly
      `len(unit_data)` of the units appended to `units`, numbered 0 to n-1, and every
      appended unit belongs to one of the new assignments. */
  lemma CreateAssignmentsGroupsUnits(l: Launcher, next: Id, k: nat)
    requires k < |l.dataList|
    ensures var r := CreateAssignments(l, next).0;
      var added := r.units[|l.units|..];
      var us := UnitsOf(added, r.assignments[|l.assignments| + k].id);
      && |us| == |l.dataList[k].unitData|
      && (forall j :: 0 <= j < |us| ==> us[j].unitIdx == j)
      && (forall i :: 0 <= i < |added| ==>
            exists m :: |l.assignments| <= m < |r.assignments| && added[i].assignmentId == r.assignments[m].id)
  {
    var r := CreateAssignments(l, next).0;
    var c := CreateAll(l.dataList, next);
    UnitsNumberedPerAssignment(l.dataList, next, k);
    CreatedUnitsBelongToCreatedAssignments(l.dataList, next);
    assert r.assignments[|l.assignments| + k] == c.assignments[k];
    var added := r.units[|l.units|..];
    forall i | 0 <= i < |added|
      ensures exists m :: |l.assignments| <= m < |r.assignments| && added[i].assignmentId == r.assignments[m].id
    {
      var k' :| 0 <= k' < |c.assignments| && c.units[i].assignmentId == c.assignments[k'].id;
      assert r.assignments[|l.assignments| + k'] == c.assignments[k'];
    }
  }

  // ---------------------------------------------------------------------------
  // expire_units

  /** One `unit.expire()` call: done, or raised and logged. */
  datatype ExpireAttempt = Expired(unit: Id) | ExpireFailed(unit: Id)

  /** `expire_units`: calls `expire` on every unit in order; a call that raises (the units
      in `raises`) is logged and the loop goes on. */
  method ExpireUnits(units: seq<Unit>, raises: set<Id>) returns (log: seq<ExpireAttempt>)
    ensures |log| == |units|
    ensures forall i :: 0 <= i < |units| ==>
      log[i].unit == units[i].id && (log[i].ExpireFailed? <==> units[i].id in raises)
  {
    log := [];
    for i := 0 to |units|
      invariant |log| == i
      invariant forall j :: 0 <= j < i ==>
        log[j].unit == units[j].id && (log[j].ExpireFailed? <==> units[j].id in raises)
    {
      var u := units[i];
      if u.id in raises {
        log := log + [ExpireFailed(u.id)];
      } else {
        log := log + [Expired(u.id)];
      }
    }
  }
}

=== FILE: unit_throttle.dfy ===
/**
  `TaskLauncher.generate_units`: the generator that hands out units while keeping at most
  `max_num_concurrent_units` of them LAUNCHED or ASSIGNED. One pass of its `while True`
  loop is a round: drop the launched units that stopped running, then move as many
  waiting units as the limit allows from `unlaunched_units` to `launched_units`, yielding
  each. Unit statuses come from the database; a round reads them as a function.

  The source writes both inner loops as index loops over a list they pop from. The
  `...AsWritten` functions follow those loops index for index; `LaunchRound` is the
  round the doc comment describes, which the multi-round model uses.
 */
module UnitThrottle {
  import opened TaskLauncher

  /** The AssignmentState values a unit can have; only LAUNCHED and ASSIGNED matter here. */
  datatype UnitStatus = Launched | Assigned | OtherStatus(name: string)

  predicate Running(s: UnitStatus)
  {
    s.Launched? || s.Assigned?
  }

  ghost predicate Distinct(us: seq<Unit>)
  {
    forall i, j :: 0 <= i < j < |us| ==> us[i] != us[j]
  }

  ghost predicate Disjoint(a: seq<Unit>, b: seq<Unit>)
  {
    forall u :: u in a ==> u !in b
  }

  // ---------------------------------------------------------------------------
  // The round as documented

  /** The launched units whose status is still LAUNCHED or ASSIGNED, in order. */
  function StillRunning(launched: seq<Unit>, status: Id -> UnitStatus): (kept: seq<Unit>)
    ensures |kept| <= |launched|
    ensures forall u :: u in kept <==> u in launched && Running(status(u.id))
  {
    if launched == [] then []
    else (if Running(status(launched[0].id)) then [launched[0]] else []) + StillRunning(launched[1..], status)
  }

  /** Pruning is a filter: each running unit is kept as often as it was launched, and
      every other unit is dropped, so the running count the limit sees is exact. */
  lemma {:induction false} StillRunningIsFilter(launched: seq<Unit>, status: Id -> UnitStatus)
    ensures forall u :: multiset(StillRunning(launched, status))[u]
                        == if Running(status(u.id)) then multiset(launched)[u] else 0
  {
    if launched != [] {
      StillRunningIsFilter(launched[1..], status);
      assert launched == [launched[0]] + launched[1..];
    }
  }

  /** How many waiting units a round may launch when `running` are still running. */
  function Capacity(running: nat, waiting: nat, max: int): (n: nat)
    ensures n <= waiting
    ensures n == 0 || running + n <= max
    ensures n < waiting ==> running + n >= max
  {
    if max - running <= 0 then 0 else if max - running < waiting then max - running else waiting
  }

  datatype Round = Round(yielded: seq<Unit>, launched: seq<Unit>, unlaunched: seq<Unit>)

  /** One round: prune, then launch the first waiting units up to the limit, in order.
      A launched unit stays launched exactly while its status is LAUNCHED or ASSIGNED. */
  function LaunchRound(launched: seq<Unit>, unlaunched: seq<Unit>, status: Id -> UnitStatus, max: int): (r: Round)
    ensures r.yielded + r.unlaunched == unlaunched
    ensures r.launched == StillRunning(launched, status) + r.yielded
    ensures r.yielded == [] || |r.launched| <= max
    ensures r.unlaunched != [] ==> |r.launched| >= max
    ensures |launched| <= max ==> |r.launched| <= max
    ensures Disjoint(launched, unlaunched) ==>
      forall u :: u in launched ==> (u in r.launched <==> Running(status(u.id)))
  {
    var kept := StillRunning(launched, status);
    var n := Capacity(|kept|, |unlaunched|, max);
    assert unlaunched[..n] + unlaunched[n..] == unlaunched;
    Round(unlaunched[..n], kept + unlaunched[..n], unlaunched[n..])
  }

  lemma SplitApart(s: seq<Unit>, n: nat)
    requires Distinct(s) && n <= |s|
    ensures Distinct(s[..n]) && Distinct(s[n..]) && Disjoint(s[..n], s[n..])
  {
    forall i, j | 0 <= i < j < |s| - n ensures s[n..][i] != s[n..][j] {
      assert s[n..][i] == s[n + i] && s[n..][j] == s[n + j];
    }
    forall i, j | 0 <= i < n && 0 <= j < |s| - n ensures s[..n][i] != s[n..][j] {
      assert s[..n][i] == s[i] && s[n..][j] == s[n + j];
    }
  }

  /** A round moves each yielded unit from the waiting list to the launched list, and
      keeps the two lists disjoint and the waiting list free of repeats. */
  lemma RoundKeepsListsApart(launched: seq<Unit>, unlaunched: seq<Unit>, status: Id -> UnitStatus, max: int)
    requires Disjoint(launched, unlaunched) && Distinct(unlaunched)
    ensures var r := LaunchRound(launched, unlaunched, status, max);
      && Disjoint(r.launched, r.unlaunched)
      && Distinct(r.unlaunched)
      && Distinct(r.yielded)
      && forall u :: u in r.yielded ==> u in r.launched && u !in r.unlaunched
  {
    var r := LaunchRound(launched, unlaunched, status, max);
    var n := |r.yielded|;
    assert r.yielded == unlaunched[..n] && r.unlaunched == unlaunched[n..];
    SplitApart(unlaunched, n);
    var kept := StillRunning(launched, status);
    forall u | u in r.launched ensures u !in r.unlaunched {
      if u in kept {
        assert u in launched;
      } else {
        assert u in r.yielded;
      }
    }
  }

  // ---------------------------------------------------------------------------
  // The generator over many rounds

  /** What the generator has done after the rounds the oracle supplies statuses for:
      the units yielded, the two lists, and whether it stopped. */
  datatype Run = Run(yielded: seq<Unit>, launched: seq<Unit>, unlaunched: seq<Unit>, finished: bool)

  /** `generate_units`: one round per status snapshot; it stops after the first round
      that leaves no unit waiting. */
  function GenerateUnits(launched: seq<Unit>, unlaunched: seq<Unit>, statuses: seq<Id -> UnitStatus>, max: int)
    : (g: Run)
    ensures g.yielded + g.unlaunched == unlaunched
    ensures g.finished ==> g.unlaunched == []
    ensures |statuses| > 0 ==> (g.finished <==> g.unlaunched == [])
    ensures |launched| <= max ==> |g.launched| <= max
    decreases |statuses|
  {
    if statuses == [] then Run([], launched, unlaunched, false)
    else
      var r := LaunchRound(launched, unlaunched, statuses[0], max);
      if r.unlaunched == [] then Run(r.yielded, r.launched, [], true)
      else
        var g := GenerateUnits(r.launched, r.unlaunched, statuses[1..], max);
        assert (r.yielded + g.yielded) + g.unlaunched == r.yielded + (g.yielded + g.unlaunched);
        Run(r.yielded + g.yielded, g.launched, g.unlaunched, g.finished)
  }

  /** Across all rounds no unit is yielded twice, and no unit is both launched and waiting. */
  lemma {:induction false} NoUnitYieldedTwice(
    launched: seq<Unit>, unlaunched: seq<Unit>, statuses: seq<Id -> UnitStatus>, max: int)
    requires Disjoint(launched, unlaunched) && Distinct(unlaunched)
    ensures var g := GenerateUnits(launched, unlaunched, statuses, max);
      Distinct(g.yielded) && Disjoint(g.launched, g.unlaunched)
    decreases |statuses|
  {
    var g := GenerateUnits(launched, unlaunched, statuses, max);
    forall i, j | 0 <= i < j < |g.yielded| ensures g.yielded[i] != g.yielded[j] {
      assert g.yielded[i] == unlaunched[i] && g.yielded[j] == unlaunched[j];
    }
    if statuses != [] {
      RoundKeepsListsApart(launched, unlaunched, statuses[0], max);
      var r := LaunchRound(launched, unlaunched, statuses[0], max);
      if r.unlaunched != [] {
        NoUnitYieldedTwice(r.launched, r.unlaunched, statuses[1..], max);
      }
    }
  }

  // ---------------------------------------------------------------------------
  // The round as written

  /** The first loop's outcome: the list left, and whether a read ran past its end. */
  datatype Pruned = Pruned(list: seq<Unit>, crashed: bool)

  /** `for i in range(n)` over `launched_units`, popping index i when that unit stopped
      running: the range is fixed at the start while the list shrinks, so a pop shifts
      the next unit under the index already passed, and a later read can raise
      IndexError (`crashed`). */
  function PruneAsWritten(list: seq<Unit>, i: nat, n: nat, status: Id -> UnitStatus): (p: Pruned)
    ensures |p.list| <= |list|
    decreases n - i
  {
    if i >= n then Pruned(list, false)
    else if i >= |list| then Pruned(list, true)
    else if !Running(status(list[i].id)) then PruneAsWritten(list[..i] + list[i + 1..], i + 1, n, status)
    else PruneAsWritten(list, i + 1, n, status)
  }

  /** The second loop's trace: the units yielded, the two lists, and whether a read ran
      past the end of the waiting list. */
  datatype Trace = Trace(yielded: seq<Unit>, launched: seq<Unit>, unlaunched: seq<Unit>, crashed: bool)

  /** `for i in range(n)` over `unlaunched_units` with `avail` free slots: while
      `i < avail` it launches and pops index i, then moves on to i + 1, which after the
      pop is two places further along the original list. */
  function LaunchAsWritten(launched: seq<Unit>, list: seq<Unit>, i: nat, n: nat, avail: int, yielded: seq<Unit>)
    : (t: Trace)
    ensures |yielded| <= |t.yielded| && t.yielded[..|yielded|] == yielded
    ensures |t.launched| == |launched| + |t.yielded| - |yielded|
    ensures t.launched == launched + t.yielded[|yielded|..]
    ensures |t.yielded| - |yielded| <= (if avail > i then avail - i else 0)
    decreases n - i
  {
    if i >= n || i >= avail then Trace(yielded, launched, list, false)
    else if i >= |list| then Trace(yielded, launched, list, true)
    else
      var u := list[i];
      LaunchAsWritten(launched + [u], list[..i] + list[i + 1..], i + 1, n, avail, yielded + [u])
  }

  /** The written second loop moves units from the waiting list to the launched list:
      none is lost or duplicated, whatever it skips or wherever it stops. */
  lemma {:induction false} LaunchAsWrittenConserves(
    launched: seq<Unit>, list: seq<Unit>, i: nat, n: nat, avail: int, yielded: seq<Unit>)
    ensures var t := LaunchAsWritten(launched, list, i, n, avail, yielded);
      && t.launched == launched + t.yielded[|yielded|..]
      && multiset(t.yielded[|yielded|..]) + multiset(t.unlaunched) == multiset(list)
    decreases n - i
  {
    if i >= n || i >= avail {
    } else if i >= |list| {
    } else {
      var u := list[i];
      var rest := list[..i] + list[i + 1..];
      var t := LaunchAsWritten(launched + [u], rest, i + 1, n, avail, yielded + [u]);
      LaunchAsWrittenConserves(launched + [u], rest, i + 1, n, avail, yielded + [u]);
      PopMultiset(list, i);
      SuffixAfterPrefix(t.yielded, yielded, u);
    }
  }

  lemma PopMultiset(list: seq<Unit>, i: nat)
    requires i < |list|
    ensures multiset(list[..i] + list[i + 1..]) + multiset{list[i]} == multiset(list)
  {
    assert list == list[..i] + [list[i]] + list[i + 1..];
  }

  lemma SuffixAfterPrefix(y: seq<Unit>, prefix: seq<Unit>, u: Unit)
    requires |prefix| + 1 <= |y| && y[..|prefix| + 1] == prefix + [u]
    ensures y[|prefix|..] == [u] + y[|prefix| + 1..]
  {
    assert y[|prefix|] == (prefix + [u])[|prefix|];
  }

  /** One pass of the generator's loop as written. A crash in the first loop ends the
      generator before anything is yielded. */
  function LaunchRoundAsWritten(launched: seq<Unit>, unlaunched: seq<Unit>, status: Id -> UnitStatus, max: int)
    : (t: Trace)
    ensures t.launched == PruneAsWritten(launched, 0, |launched|, status).list + t.yielded
    ensures t.yielded == [] || |t.launched| <= max
    ensures |launched| <= max ==> |t.launched| <= max
    ensures multiset(t.yielded) + multiset(t.unlaunched) == multiset(unlaunched)
  {
    var p := PruneAsWritten(launched, 0, |launched|, status);
    if p.crashed then Trace([], p.list, unlaunched, true)
    else
      LaunchAsWrittenConserves(p.list, unlaunched, 0, |unlaunched|, max - |p.list|, []);
      LaunchAsWritten(p.list, unlaunched, 0, |unlaunched|, max - |p.list|, [])
  }

  // ---------------------------------------------------------------------------
  // What the written loops do

  lemma {:induction false} PruneCrashesOnceShorter(list: seq<Unit>, i: nat, n: nat, status: Id -> UnitStatus)
    requires |list| < n && i < n
    ensures PruneAsWritten(list, i, n, status).crashed
    decreases n - i
  {
    if i < |list| {
      if !Running(status(list[i].id)) {
        PruneCrashesOnceShorter(list[..i] + list[i + 1..], i + 1, n, status);
      } else {
        PruneCrashesOnceShorter(list, i + 1, n, status);
      }
    }
  }

  /** Some unit at index `i` or later, other than the last, has stopped running. */
  ghost predicate StopsBeforeLast(list: seq<Unit>, i: nat, status: Id -> UnitStatus)
  {
    exists k :: i <= k < |list| - 1 && !Running(status(list[k].id))
  }

  lemma {:induction false} PruneFromCrashes(list: seq<Unit>, i: nat, status: Id -> UnitStatus)
    requires i <= |list|
    ensures PruneAsWritten(list, i, |list|, status).crashed <==> StopsBeforeLast(list, i, status)
    decreases |list| - i
  {
    if i == |list| {
    } else if !Running(status(list[i].id)) {
      if i < |list| - 1 {
        PruneCrashesOnceShorter(list[..i] + list[i + 1..], i + 1, |list|, status);
      }
    } else {
      PruneFromCrashes(list, i + 1, status);
      if StopsBeforeLast(list, i, status) {
        var k :| i <= k < |list| - 1 && !Running(status(list[k].id));
        assert k != i;
      }
    }
  }

  lemma {:induction false} PruneFromKeeps(list: seq<Unit>, i: nat, status: Id -> UnitStatus)
    requires i <= |list|
    requires !PruneAsWritten(list, i, |list|, status).crashed
    ensures PruneAsWritten(list, i, |list|, status).list == list[..i] + StillRunning(list[i..], status)
    decreases |list| - i
  {
    var n := |list|;
    if i == n {
      assert list[..i] == list;
    } else if !Running(status(list[i].id)) {
      PruneFromCrashes(list, i, status);
      assert !StopsBeforeLast(list, i, status);
      assert i == n - 1;
      LastUnitDropped(list, status);
    } else {
      PruneFromKeeps(list, i + 1, status);
      RunningUnitKept(list, i, status);
    }
  }

  /** Dropping the last launched unit ends the written loop with the units before it. */
  lemma LastUnitDropped(list: seq<Unit>, status: Id -> UnitStatus)
    requires |list| > 0 && !Running(status(list[|list| - 1].id))
    ensures var i := |list| - 1;
      PruneAsWritten(list, i, |list|, status) == Pruned(list[..i], false)
      && StillRunning(list[i..], status) == []
  {
    var i := |list| - 1;
    assert list[..i] + list[i + 1..] == list[..i];
    assert list[i..] == [list[i]];
  }

  /** Keeping the unit at index i moves it from the unpruned part to the kept prefix. */
  lemma RunningUnitKept(list: seq<Unit>, i: nat, status: Id -> UnitStatus)
    requires i < |list| && Running(status(list[i].id))
    ensures PruneAsWritten(list, i, |list|, status) == PruneAsWritten(list, i + 1, |list|, status)
    ensures list[..i] + StillRunning(list[i..], status) == list[..i + 1] + StillRunning(list[i + 1..], status)
  {
    assert list[i..][1..] == list[i + 1..];
    assert StillRunning(list[i..], status) == [list[i]] + StillRunning(list[i + 1..], status);
    assert list[..i + 1] == list[..i] + [list[i]];
  }

  /** The first loop raises IndexError exactly when some launched unit other than the
      last has stopped running. */
  lemma {:induction false} PruneAsWrittenCrashesIff(launched: seq<Unit>, status: Id -> UnitStatus)
    ensures PruneAsWritten(launched, 0, |launched|, status).crashed
            <==> exists k :: 0 <= k < |launched| - 1 && !Running(status(launched[k].id))
  {
    PruneFromCrashes(launched, 0, status);
  }

  /** When the first loop does not raise, it keeps what the documented round keeps. */
  lemma {:induction false} PruneAsWrittenAgrees(launched: seq<Unit>, status: Id -> UnitStatus)
    requires !PruneAsWritten(launched, 0, |launched|, status).crashed
    ensures PruneAsWritten(launched, 0, |launched|, status).list == StillRunning(launched, status)
  {
    PruneFromKeeps(launched, 0, status);
    assert launched[0..] == launched;
  }

  /** The units at even positions 0, 2, .., 2(c-1). */
  function Evens(u: seq<Unit>, c: nat): (e: seq<Unit>)
    requires 2 * c <= |u| + 1
    ensures |e| == c
    ensures forall j :: 0 <= j < c ==> e[j] == u[2 * j]
  {
    if c == 0 then [] else Evens(u, c - 1) + [u[2 * (c - 1)]]
  }

  /** The units at odd positions 1, 3, .., 2c-1. */
  function Odds(u: seq<Unit>, c: nat): (o: seq<Unit>)
    requires 2 * c <= |u|
    ensures |o| == c
  {
    if c == 0 then [] else Odds(u, c - 1) + [u[2 * c - 1]]
  }

  /** How many units the written second loop yields from `m` waiting units with
      `avail` free slots: one per free slot, but never more than every other unit. */
  function EveryOtherCount(m: nat, avail: int): (k: nat)
    ensures 2 * k <= m + 1
  {
    if avail <= 0 then 0 else if avail < (m + 1) / 2 then avail else (m + 1) / 2
  }

  /** Popping the unit at index i of the written loop's list in its i-th pass. */
  lemma PopShape(u: seq<Unit>, i: nat, list: seq<Unit>)
    requires 2 * i < |u| && list == Odds(u, i) + u[2 * i..]
    ensures i < |list| && list[i] == u[2 * i]
    ensures list[..i] + list[i + 1..] == Odds(u, i) + u[2 * i + 1..]
  {
    assert list[..i] == Odds(u, i);
    assert list[i + 1..] == u[2 * i + 1..];
  }

  lemma OddsStep(u: seq<Unit>, i: nat)
    requires 2 * i + 2 <= |u|
    ensures Odds(u, i) + u[2 * i + 1..] == Odds(u, i + 1) + u[2 * (i + 1)..]
  {
    assert u[2 * i + 1..] == [u[2 * i + 1]] + u[2 * (i + 1)..];
  }

  lemma {:induction false} LaunchFrom(
    kept: seq<Unit>, u: seq<Unit>, list: seq<Unit>, i: nat, avail: int, yielded: seq<Unit>)
    requires 2 * i <= |u| && i <= EveryOtherCount(|u|, avail)
    requires list == Odds(u, i) + u[2 * i..] && yielded == Evens(u, i)
    ensures var t := LaunchAsWritten(kept, list, i, |u|, avail, yielded);
      && t.yielded == Evens(u, EveryOtherCount(|u|, avail))
      && (t.crashed <==> |u| >= 2 && avail > (|u| + 1) / 2)
    decreases |u| - i
  {
    var m := |u|;
    assert |list| == m - i;
    if i >= m || i >= avail {
    } else if i >= |list| {
    } else {
      PopShape(u, i, list);
      var list' := list[..i] + list[i + 1..];
      var yielded' := yielded + [u[2 * i]];
      assert yielded' == Evens(u, i + 1);
      if 2 * i + 2 <= m {
        OddsStep(u, i);
        LaunchFrom(kept + [u[2 * i]], u, list', i + 1, avail, yielded');
      } else {
        assert |list'| == i;
      }
    }
  }

  /** The second loop as written yields the waiting units at positions 0, 2, 4, .. (one
      per free slot, at most every other unit), and raises IndexError exactly when at
      least two units wait and the free slots outnumber the units at even positions. */
  lemma LaunchAsWrittenYieldsEveryOther(kept: seq<Unit>, unlaunched: seq<Unit>, avail: int)
    ensures var t := LaunchAsWritten(kept, unlaunched, 0, |unlaunched|, avail, []);
      && |t.yielded| == EveryOtherCount(|unlaunched|, avail)
      && (forall j :: 0 <= j < |t.yielded| ==> t.yielded[j] == unlaunched[2 * j])
      && (t.crashed <==> |unlaunched| >= 2 && avail > (|unlaunched| + 1) / 2)
  {
    assert unlaunched == Odds(unlaunched, 0) + unlaunched[0..];
    LaunchFrom(kept, unlaunched, unlaunched, 0, avail, []);
  }

  // ---------------------------------------------------------------------------
  // Concrete inputs on which the written round departs from the documented one

  /** Two launched units that have both finished: the written loop raises, while the
      documented round drops both. */
  lemma PruneCrashExample(a: Unit, b: Unit, status: Id -> UnitStatus)
    requires !Running(status(a.id)) && !Running(status(b.id))
    ensures PruneAsWritten([a, b], 0, 2, status).crashed
    ensures StillRunning([a, b], status) == []
  {
    PruneAsWrittenCrashesIff([a, b], status);
    assert [a, b][1..] == [b];
  }

  /** Four waiting units and two free slots: the written loop launches the first and the
      third, the documented round the first two. */
  lemma LaunchSkipExample(a: Unit, b: Unit, c: Unit, d: Unit)
    ensures var t := LaunchAsWritten([], [a, b, c, d], 0, 4, 2, []);
      t.yielded == [a, c] && !t.crashed
    ensures LaunchRound([], [a, b, c, d], _ => Launched, 2).yielded == [a, b]
  {
    LaunchAsWrittenYieldsEveryOther([], [a, b, c, d], 2);
    var t := LaunchAsWritten([], [a, b, c, d], 0, 4, 2, []);
    assert t.yielded == [t.yielded[0], t.yielded[1]];
  }

  /** Two waiting units and two free slots: the written loop launches the first, then
      raises before the second is launched. */
  lemma LaunchCrashExample(a: Unit, b: Unit)
    ensures var t := LaunchAsWritten([], [a, b], 0, 2, 2, []);
      t.yielded == [a] && t.crashed
    ensures LaunchRound([], [a, b], _ => Launched, 2).yielded == [a, b]
  {
    LaunchAsWrittenYieldsEveryOther([], [a, b], 2);
  }

  /** With at most one free slot, the written second loop launches what the documented
      round launches: the first waiting unit if there is a slot, nothing otherwise. */
  lemma {:induction false} SingleSlotLaunchAgrees(kept: seq<Unit>, unlaunched: seq<Unit>, avail: int)
    requires avail <= 1
    ensures var n := if avail == 1 && unlaunched != [] then 1 else 0;
      LaunchAsWritten(kept, unlaunched, 0, |unlaunched|, avail, [])
        == Trace(unlaunched[..n], kept + unlaunched[..n], unlaunched[n..], false)
  {
    if avail == 1 && unlaunched != [] {
      var u0 := unlaunched[0];
      assert unlaunched[..0] + unlaunched[1..] == unlaunched[1..];
      assert LaunchAsWritten(kept + [u0], unlaunched[1..], 1, |unlaunched|, avail, [u0])
        == Trace([u0], kept + [u0], unlaunched[1..], false);
      assert unlaunched[..1] == [u0];
    } else {
      assert unlaunched[..0] == [] && unlaunched[0..] == unlaunched;
    }
  }

  /** With the default limit of one concurrent unit, the written round behaves exactly
      like the documented one. */
  lemma {:induction false} DefaultLimitAgrees(launched: seq<Unit>, unlaunched: seq<Unit>, status: Id -> UnitStatus, max: int)
    requires max <= 1 && |launched| <= 1
    ensures var r := LaunchRound(launched, unlaunched, status, max);
      LaunchRoundAsWritten(launched, unlaunched, status, max) == Trace(r.yielded, r.launched, r.unlaunched, false)
  {
    PruneAsWrittenCrashesIff(launched, status);
    PruneAsWrittenAgrees(launched, status);
    var kept := StillRunning(launched, status);
    SingleSlotLaunchAgrees(kept, unlaunched, max - |kept|);
  }
}

=== FILE: wrappers.dfy ===
/** Failure-carrying values shared by the supervisor and launcher models. */
module Wrappers {

  /** Python's `None` or a present value. */
  datatype Option<+T> = None | Some(value: T)

  /** The outcome of a step that can raise: the value it returns or the exception it raises. */
  datatype Result<+T, +E> = Ok(value: T) | Err(error: E)
}
